=== FILE: README.md ===
# wasm-three-d: render targets, pixel flipping and terrain paging in Dafny

This project models three pieces of the `three-d` renderer (the wasm port).

**Render targets** (`src/core/render_target.rs`). A `RenderTarget` records:
- an optional framebuffer id (`None` means the screen);
- optional colour and depth attachments;
- its width and height.

Every operation is a pure function, or a short method, that yields one of two things:
- the panic the Rust code raises, as a `Failure`;
- the ordered list of GL calls it issues.

The calls covered are scissor, bind, clear, the caller's rendering, mip regeneration, the copy pass, pixel reads and framebuffer deletion.

**Pixel helpers** (`src/core.rs`):
- `format_from_data_type`: the channel-count → format map.
- `flip_y`: mirrors the rows of a pixel block in place by swapping. It is modelled as a method with loops over a sequence.

**Terrain** (`src/renderer/geometry/terrain.rs`).
- `Terrain::new` fills a 33 × 33 window of integer patch coordinates around a center.
- `Terrain::update` walks the center towards the target patch one unit at a time, x first and then y. Each step pushes the column or row that enters the window. A final `retain` evicts everything outside the new window.
- The main result is that the window invariant is preserved: the patch list holds every coordinate of the window exactly once, 1089 in all. This is stated with multisets.
- `GroundPatch::index_buffer` picks a level of detail from the Manhattan distance to the camera's patch.
- `GroundPatch::indices` lists two triangles per quad over the 68 × 68 vertex grid.

Files:
- `wrappers.dfy`: `Option`, `Result`.
- `arith.dfy`: monotonicity of multiplication and the characterisation of division.
- `pixels.dfy`: module `Pixels`.
- `render_target.dfy`: module `RenderTargets`.
- `ground_patch.dfy`: module `GroundPatches`.
- `terrain.dfy`: module `TerrainPaging`.

Behaviour of the code worth knowing:
- **Level-of-detail selection.** A patch at distance 5 to 8 gets the very coarse buffer, not the coarse one, because `dist > 4` is tested first. See Findings.
- **Byte widening when reading colour.** The comment at src/core/render_target.rs:127 asks for RGBA when the data type is a byte. The code only enlarges the byte buffer, to `4 / channels` times the size. The format passed to `read_pixels` is still the one for the channel count, which is RED for one channel. The caller gets back the whole enlarged buffer: `read_color::<u8>()` on a one-channel target returns 4·w·h values, and `flip_y` (src/core.rs:101-105) reorders only the first w·h of them. The model reproduces both.
- **Framebuffer creation failure.** It panics through `expect`. The model records it as a `Failure` result.
- **Write order.** `clear_partially` and `write_partially` set the scissor before they bind.

## Model

| member | source | states |
|---|---|---|
| Pixels.FormatFromDataType | src/core.rs:90-98 | channel counts 1, 2, 3 and 4 map to RED, RG, RGB and RGBA: the format's own channel count is the input, and any other count is excluded (the `unreachable!()` arm) |
| Pixels.FormatRoundTrip | src/core.rs:90-98 | the map is a bijection onto the four formats: every format is produced by its channel count |
| Pixels.Idx | src/core.rs:103-104 | the row-major offset `width * row + col` of a pixel in the block lies inside the block |
| Pixels.IdxInjective | src/core.rs:103-104 | distinct (row, col) pairs address distinct pixels, so the two swapped indices differ unless they are the same pixel |
| Pixels.IdxSplit | src/core.rs:103-104 | every offset below `width * height` is the address of the pixel (offset / width, offset % width) |
| Pixels.Swap | src/core.rs:105 | `slice::swap` exchanges two positions, keeps every other one and keeps the multiset |
| Pixels.FlipStep | src/core.rs:102-106 | one swap of (row, col) with its mirror extends the set of already-mirrored pixels by exactly that pair |
| Pixels.FlipRow | src/core.rs:102-106 | the inner loop mirrors one whole row with its partner row and moves nothing else |
| Pixels.FlipDone | src/core.rs:101-107 | once the upper half of the rows has been handled, the buffer is the vertical mirror of the input |
| Pixels.FlipY | src/core.rs:100-108 | with at least `width * height` pixels the result is the vertical mirror of the input: (row, col) receives (height-1-row, col); pixels past the block are unchanged; the multiset is kept; for an odd height the middle row stays in place |
| Pixels.FlipSymmetric | src/core.rs:100-108 | if r is the flip of p then p is the flip of r |
| Pixels.FlipUnique | src/core.rs:100-108 | a buffer has only one flip |
| Pixels.FlipInvolution | src/core.rs:100-108 | flipping twice restores the original buffer |
| RenderTargets.FullBox | src/core/render_target.rs:233-235 | the scissor box of a target is anchored at the origin and has the target's size |
| RenderTargets.Drop | src/core/render_target.rs:304-312 | dropping deletes the framebuffer exactly when the target holds an id, and deletes nothing else |
| RenderTargets.Screen | src/core/render_target.rs:40-49 | the screen target has no framebuffer id and no colour or depth attachment, has the given size, never panics on a read and deletes nothing when dropped |
| RenderTargets.NewFramebuffer | src/core/render_target.rs:322-328 | framebuffer creation succeeds exactly when the driver returns a handle, and yields that handle |
| RenderTargets.New | src/core/render_target.rs:54-65 | a target with both attachments is sized by the colour attachment (depth is not compared), can read both, and deletes its own framebuffer on drop; it fails only when creation fails |
| RenderTargets.NewColor | src/core/render_target.rs:265-276 | a colour-only target is sized by its colour attachment, reads colour but panics on a depth read, and deletes its framebuffer on drop |
| RenderTargets.NewDepth | src/core/render_target.rs:278-289 | a depth-only target is sized by its depth attachment, reads depth but panics on a colour read, and deletes its framebuffer on drop |
| RenderTargets.FromFramebuffer | src/core/render_target.rs:241-255 | a wrapped foreign framebuffer has the given size, panics on both reads and deletes that framebuffer when dropped |
| RenderTargets.IntoFramebuffer | src/core/render_target.rs:261-263 | taking the id returns it and leaves a target whose drop deletes nothing, other fields unchanged |
| RenderTargets.FramebufferRoundTrip | src/core/render_target.rs:241-263 | wrapping a framebuffer and taking it back returns the same handle and the drop afterwards deletes nothing |
| RenderTargets.Bind | src/core/render_target.rs:291-301 | binding first binds the id at the requested point, then attaches colour exactly when present and depth exactly when present, and nothing else |
| RenderTargets.ClearPartially | src/core/render_target.rs:77-82 | the scissor is set first, then the target is bound for drawing, then the clear state is applied last |
| RenderTargets.Clear | src/core/render_target.rs:70-72 | a full clear uses the whole-target scissor box and applies the clear state |
| RenderTargets.WritePartially | src/core/render_target.rs:94-102 | scissor, then bind for drawing, then the caller's work unchanged, then mip regeneration iff a colour attachment exists |
| RenderTargets.Write | src/core/render_target.rs:87-89 | a full write uses the whole-target scissor box and regenerates mips when there is a colour attachment |
| RenderTargets.WriteMipsLast | src/core/render_target.rs:94-102 | when the work itself does not regenerate mips, a write regenerates mips iff there is a colour attachment, and does so as its last call |
| RenderTargets.EffectiveMask | src/core/render_target.rs:379-385 | the copy pass writes colour channels only when a colour source is given (then exactly the requested ones) and depth only when a depth source is given |
| RenderTargets.CopyPass | src/core/render_target.rs:330-393 | with no source the copy issues nothing; otherwise one pass over the viewport with the effective mask (`copy_from_array`, lines 395-464, issues the same) |
| RenderTargets.CopyFrom | src/core/render_target.rs:190-228 | with no source the calls are exactly those of a full write with no work: the scissor, the bind and, when there is a colour attachment, mip regeneration; with a source the copy pass with the effective mask is among the calls |
| RenderTargets.DataSize | src/core/render_target.rs:125-129 | bytes per pixel are `size_of::<T>()`, widened by `4 / channels` exactly when a channel is one byte; always a whole multiple of `size_of::<T>()` |
| RenderTargets.ColorReadLength | src/core/render_target.rs:130-143 | the colour read yields at least one value per pixel of the box |
| RenderTargets.ReadColorPartially | src/core/render_target.rs:120-151 | panics iff the target has an id but no colour attachment; otherwise binds for draw and read, reads `w * h * DataSize` bytes in the channel-count format, and returns the vertical mirror of what the driver wrote (a permutation of it) |
| RenderTargets.ReadColor | src/core/render_target.rs:110-112 | a full colour read reads the whole-target box and returns it flipped; it panics exactly when the partial read would |
| RenderTargets.ReadDepthPartially | src/core/render_target.rs:165-184 | panics iff the target has an id but no depth attachment; otherwise binds for draw and read, reads 4 bytes per pixel and returns the values unflipped |
| RenderTargets.ReadDepth | src/core/render_target.rs:157-159 | a full depth read reads the whole-target box, 4 bytes per pixel |
| RenderTargets.ReadPanics | src/core/render_target.rs:121-167 | reads from the screen never panic; reads from a wrapped foreign framebuffer always panic |
| RenderTargets.SizeWithMip | src/core/render_target.rs:314-320 | a mip size never exceeds the base size, and no level or level 0 gives the base size |
| RenderTargets.SizeWithMipBounds | src/core/render_target.rs:314-320 | the size at level m is the number of whole 2^m blocks in the base size (floor division) |
| RenderTargets.SizeWithMipHalves | src/core/render_target.rs:314-320 | each level is the level above halved and rounded down |
| GroundPatches.IndexBuffer | src/renderer/geometry/terrain.rs:153-162 | as coded: very coarse iff the Manhattan distance exceeds 4, fine otherwise, and the coarse buffer is never chosen |
| GroundPatches.IntendedPolicy | src/renderer/geometry/terrain.rs:153-162 | the tiered policy (fine ≤ 4 < coarse ≤ 8 < very coarse) only coarsens with distance, uses the coarse buffer, and differs from the code exactly at distances 5 to 8 |
| GroundPatches.CoarseNeverSelected | src/renderer/geometry/terrain.rs:153-162 | at distance 5 the code picks very coarse where the tiers call for coarse |
| GroundPatches.QuadsPerSide | src/renderer/geometry/terrain.rs:166-167 | the quad count per side is the largest n with `n * resolution <= 67` |
| GroundPatches.QuadInGrid | src/renderer/geometry/terrain.rs:170-175 | the six indices pushed for one quad are two triangles sharing an edge (entries 3 and 4 repeat 2 and 1), all inside the 68 × 68 grid |
| GroundPatches.AllQuadsConcat | src/renderer/geometry/terrain.rs:168-177 | appending whole well-formed quads to whole well-formed quads keeps the list well formed |
| GroundPatches.RowQuads | src/renderer/geometry/terrain.rs:169-176 | the inner loop pushes six indices per remaining quad, all well-formed quads inside the grid |
| GroundPatches.Rows | src/renderer/geometry/terrain.rs:168-177 | the outer loop pushes `6 * n` indices per remaining row, all well-formed quads inside the grid |
| GroundPatches.RowQuadsAt | src/renderer/geometry/terrain.rs:169-176 | the inner loop for row `r` emits quad `(r, c')` as its `(c' - c)`-th group of six, in column order |
| GroundPatches.RowsAt | src/renderer/geometry/terrain.rs:168-177 | the outer loop emits quad `(r', c')` as group `(r' - r) * n + c'`: whole rows one after the other, each in column order |
| GroundPatches.Indices | src/renderer/geometry/terrain.rs:164-179 | `6 * ((68 - 1) / res)²` indices, i.e. 6·67², 6·16², 6·8² for resolutions 1, 4, 8; every index below 68·68; group `r * n + c` (row-major, `n` quads per side) is exactly the two triangles of quad `(r, c)`, corner `r·res + c·res·68` |
| TerrainPaging.WindowMeans | src/renderer/geometry/terrain.rs:99-101 | the window rectangle holds exactly the coordinates the `retain` condition keeps |
| TerrainPaging.ColumnAt | src/renderer/geometry/terrain.rs:46-55 | a pushed column holds `(ix, ylo + i)` at position i, from bottom to top |
| TerrainPaging.ColumnExactly | src/renderer/geometry/terrain.rs:28-31 | a pushed column lists each coordinate of its one-wide rectangle exactly once |
| TerrainPaging.RowExactly | src/renderer/geometry/terrain.rs:73-82 | a pushed row lists each coordinate of its one-high rectangle exactly once |
| TerrainPaging.GridExactly | src/renderer/geometry/terrain.rs:27-32 | columns pushed left to right list their rectangle exactly once each |
| TerrainPaging.ColumnsLeftExactly | src/renderer/geometry/terrain.rs:58-70 | columns pushed right to left list their rectangle exactly once each |
| TerrainPaging.RowsUpExactly | src/renderer/geometry/terrain.rs:71-83 | rows pushed bottom to top list their rectangle exactly once each |
| TerrainPaging.RowsDownExactly | src/renderer/geometry/terrain.rs:85-97 | rows pushed top to bottom list their rectangle exactly once each |
| TerrainPaging.GridLength | src/renderer/geometry/terrain.rs:27-32 | the nested loop pushes width × height patches |
| TerrainPaging.WindowSize | src/renderer/geometry/terrain.rs:6-7 | any list holding a window exactly has (2·16+1)² = 1089 patches |
| TerrainPaging.PushColumn | src/renderer/geometry/terrain.rs:46-55 | the inner loop appends exactly the column from `ylo` to `yhi` to what was there |
| TerrainPaging.PushRow | src/renderer/geometry/terrain.rs:73-82 | the inner loop appends exactly the row from `xlo` to `xhi` to what was there |
| TerrainPaging.PushGrid | src/renderer/geometry/terrain.rs:27-32 | the nested loop appends the columns left to right, each bottom to top |
| TerrainPaging.New | src/renderer/geometry/terrain.rs:19-39 | the new terrain is centered on the given patch and holds each of the 1089 coordinates within 16 of it on both axes exactly once |
| TerrainPaging.GridWindowOf | src/renderer/geometry/terrain.rs:25-32 | the list `new` builds is exactly the window, 1089 patches |
| TerrainPaging.GridWindow | src/renderer/geometry/terrain.rs:25-32 | the window grid around any center lists the window exactly, 1089 patches |
| TerrainPaging.Shifted | src/renderer/geometry/terrain.rs:44-97 | the four loops only append: the old patch list is a prefix of the result |
| TerrainPaging.Retain | src/renderer/geometry/terrain.rs:99-101 | `retain` keeps only in-window patches and never lengthens the list |
| TerrainPaging.RetainCount | src/renderer/geometry/terrain.rs:99-101 | every copy of an in-window coordinate survives and no copy of any other does |
| TerrainPaging.RetainMembers | src/renderer/geometry/terrain.rs:99-101 | a coordinate survives iff it was present and lies in the window |
| TerrainPaging.RetainAll | src/renderer/geometry/terrain.rs:99-101 | `retain` of a list lying wholly in the window is the identity |
| TerrainPaging.UpdateBounds | src/renderer/geometry/terrain.rs:99-101 | after `update` every patch is within 16 of the target on both axes, and no old patch within that window is lost |
| TerrainPaging.ShiftRight | src/renderer/geometry/terrain.rs:44-56 | the loop ends with center.x = max(center.x, x0) and appends the columns beyond the old right edge, left to right |
| TerrainPaging.ShiftLeft | src/renderer/geometry/terrain.rs:58-70 | the loop ends with center.x = min(center.x, x0) and appends the columns beyond the old left edge, right to left |
| TerrainPaging.ShiftUp | src/renderer/geometry/terrain.rs:71-83 | the loop ends with center.y = max(center.y, y0) and appends the rows beyond the old top edge at the new x, bottom to top |
| TerrainPaging.ShiftDown | src/renderer/geometry/terrain.rs:85-97 | the loop ends with center.y = min(center.y, y0) and appends the rows beyond the old bottom edge at the new x, top to bottom |
| TerrainPaging.Update | src/renderer/geometry/terrain.rs:41-102 | the four loops leave the center at the target patch; the loops followed by `retain` equal the closed form `Updated` (old patches, then the four strips, filtered to the new window); a terrain holding exactly its window holds exactly the new window afterwards, 1089 patches |
| TerrainPaging.Band | src/renderer/geometry/terrain.rs:44-70 | the old window plus the columns added on either side cover the horizontal band exactly once |
| TerrainPaging.Pieces | src/renderer/geometry/terrain.rs:99-101 | exact lists of disjoint rectangles covering the window leave exactly the window after `retain` |
| TerrainPaging.Geometry | src/renderer/geometry/terrain.rs:44-97 | the horizontal band and the row blocks added by the y loops are pairwise disjoint and cover the new window |
| TerrainPaging.WindowAfterShift | src/renderer/geometry/terrain.rs:44-101 | the old window plus the four strips, after `retain`, is exactly the new window |
| TerrainPaging.RightStripExactly | src/renderer/geometry/terrain.rs:44-56 | the columns the right loop appends lie beyond the old right edge, each once |
| TerrainPaging.LeftStripExactly | src/renderer/geometry/terrain.rs:58-70 | the columns the left loop appends lie beyond the old left edge, each once |
| TerrainPaging.UpStripExactly | src/renderer/geometry/terrain.rs:71-83 | the rows the up loop appends lie beyond the old top edge, each once |
| TerrainPaging.DownStripExactly | src/renderer/geometry/terrain.rs:85-97 | the rows the down loop appends lie beyond the old bottom edge, each once |
| TerrainPaging.UpdateKeepsWindow | src/renderer/geometry/terrain.rs:41-102 | for any target, `update` keeps the invariant: no duplicates, no gaps, 1089 patches in the window around the target |
| TerrainPaging.UpdateInPlace | src/renderer/geometry/terrain.rs:41-102 | updating towards the current center leaves the terrain unchanged |
| TerrainPaging.StepRightShift | src/renderer/geometry/terrain.rs:44-56 | a +1 step in x appends exactly 33 patches, `(cx + 17, cy - 16 + i)` for i = 0..32 |
| TerrainPaging.EvictAt | src/renderer/geometry/terrain.rs:99-101 | against a list holding exactly the old window, the right step's `retain` removes a coordinate iff it is in column cx − 16 |
| TerrainPaging.StepRightAt | src/renderer/geometry/terrain.rs:44-101 | after a +1 step in x, a given old patch is gone iff it was in column cx − 16 |
| TerrainPaging.StepRight | src/renderer/geometry/terrain.rs:44-101 | after a +1 step in x, `retain` has removed exactly the 33 patches of column cx − 16 |

## Left out

- `pos2patch` (float `floor` of the position over the patch size): the target patch is an integer input to `New` and `Update`.
- Patch contents: `GroundPatch::new`, `positions` and `normals` sample an external height closure in floating point. A patch is modelled by its coordinate alone.
- `aabb`, `to_geometries` and `render_with_material`: float geometry, and shader/uniform/draw plumbing.
- The glTF asset loading and material creation in `Terrain::new`: file I/O.
- The `Context` handle and its clones: no behaviour beyond the calls in the trace.
- `read_pixels` and the unsafe byte reinterpretation. What the driver writes is a parameter (`device`), already reinterpreted as `T` values.
- `ColorTarget`, `DepthTarget` and `ClearState` internals. An attachment is reduced to its size; `generate_mip_maps` and the attachment binds are single calls in the trace. The skip for textures without a mip chain lives in the attachment and is not modelled.
- The GLSL sources and `effect.apply` of the copy pass: kept are the no-op condition, the viewport and the effective write mask. Whether a 2D texture or an array layer is sampled does not change the model, so `copy_from_array` shares it.
- `#[cfg(not(target_arch = "wasm32"))]` on the depth reads: the model does not distinguish build targets.
- The legacy `lib/core/src/rendertarget.rs`, `examples/` and `src/lib.rs`: thin GL wrappers, example code and module declarations.
- TerrainPaging.New: coordinates are unbounded integers. The `i32` overflow of `x0 ± 16` near the edge of the `i32` range is not modelled.
- TerrainPaging.Update: as for `New`, `i32` overflow of the center and window bounds is not modelled.
- GroundPatches.IndexBuffer: the distance `|ix - x0| + |iy - y0|` is computed in `i32` in the code. Its overflow for coordinates near the ends of the `i32` range is not modelled; the distance is an unbounded integer.
- RenderTargets.CopyPass: `context.effect(..).unwrap()` panics when the copy shader fails to compile or link. The shader sources are not modelled, so neither is this failure; the pass always succeeds.
- GroundPatches.Indices: the `u32` arithmetic cannot overflow for indices below 68·68, so it is modelled unbounded. Resolution 0 divides by zero and is excluded by a precondition.
- RenderTargets.SizeWithMip: levels 32 and above are excluded by a precondition, because `2u32.pow` overflows there.
- Pixels.FormatFromDataType: channel counts outside 1 to 4 hit `unreachable!()`, and are excluded by a precondition.
- Pixels.FlipY: `width * height` is unbounded. A `usize` overflow of the index computation is not modelled.
- RenderTargets.ReadColorPartially: widths, heights and byte counts are unbounded. The `u32 → i32` casts of the box are not modelled.

## Findings

| source | as written | input that shows it | evidently intended | confidence | as-written member | corrected member |
|---|---|---|---|---|---|---|
| src/renderer/geometry/terrain.rs:153-162 | `if dist > 4 { very_coarse } else if dist > 8 { coarse } else { fine }`: the second test can never succeed, so the coarse buffer built at resolution 4 is never used | a patch at Manhattan distance 5 from the camera's patch gets the very coarse buffer | fine up to distance 4, coarse up to 8, very coarse beyond: test `dist > 8` first | high; not executed | GroundPatches.CoarseNeverSelected | GroundPatches.IntendedPolicy |

=== FILE: arith.dfy ===
/** Small facts about natural-number multiplication and division used by the pixel, mip and index models. */
module Arith {

  /** Multiplication by a natural number is monotone. */
  lemma MulMono(a: nat, b: nat, c: nat)
    requires b <= c
    ensures a * b <= a * c
  {
  }

  /** Multiples of `a` below `a * c` leave room for at least one more `a`. */
  lemma MulStep(a: nat, b: nat, c: nat)
    requires b < c
    ensures a * b + a <= a * c
  {
    MulMono(a, b + 1, c);
    assert a * (b + 1) == a * b + a;
  }

  /** Quotient and remainder determine each other: the characterisation of `/`. */
  lemma DivUnique(n: nat, d: nat, q: nat, r: nat)
    requires d > 0 && r < d && n == q * d + r
    ensures n / d == q
  {
    var q' := n / d;
    if q' < q {
      MulMono(d, q' + 1, q);
      assert false;
    } else if q' > q {
      MulMono(d, q + 1, q');
      assert false;
    }
  }

  /** The quotient is the largest multiple of the divisor not above the dividend. */
  lemma DivBounds(n: nat, d: nat)
    requires d >= 1
    ensures 0 <= n / d <= n
    ensures (n / d) * d <= n < (n / d + 1) * d
  {
    var q, r := n / d, n % d;
    assert n == q * d + r && r < d;
    MulMono(q, 1, d);
  }
}

=== FILE: ground_patch.dfy ===
/**
  `GroundPatch` of `src/renderer/geometry/terrain.rs`: the choice of index
  buffer by camera distance, and the two-triangles-per-quad index lists
  built at resolutions 1, 4 and 8 over the patch's vertex grid.
 */
module GroundPatches {
  import opened Arith

  /** `VERTICES_PER_SIDE = (PATCH_SIZE + 1) * VERTICES_PER_UNIT = 17 * 4`. */
  const VerticesPerSide: nat := 17 * 4

  /** The three index buffers a patch carries. */
  datatype Lod = Fine | Coarse | VeryCoarse

  function Abs(x: int): nat
  {
    if x < 0 then -x else x
  }

  /** Manhattan distance between the patch `(ix, iy)` and the camera's patch `(x0, y0)`. */
  function Distance(ix: int, iy: int, x0: int, y0: int): nat
  {
    Abs(ix - x0) + Abs(iy - y0)
  }

  /**
    `index_buffer`, as written: `dist > 4` is tested before `dist > 8`, so
    every patch farther than 4 gets the very coarse buffer and the coarse
    buffer is never chosen.
   */
  function IndexBuffer(ix: int, iy: int, x0: int, y0: int): (lod: Lod)
    ensures lod == VeryCoarse <==> Distance(ix, iy, x0, y0) > 4
    ensures lod == Fine <==> Distance(ix, iy, x0, y0) <= 4
    ensures lod != Coarse
  {
    var dist := Distance(ix, iy, x0, y0);
    if dist > 4 then VeryCoarse
    else if dist > 8 then Coarse
    else Fine
  }

  /** How coarse a level is: 0 for fine, 2 for very coarse. */
  function Rank(lod: Lod): nat
  {
    match lod
    case Fine => 0
    case Coarse => 1
    case VeryCoarse => 2
  }

  /**
    The selection the three buffers are evidently built for: fine up to
    distance 4, coarse up to distance 8, very coarse beyond.
   */
  function IntendedIndexBuffer(ix: int, iy: int, x0: int, y0: int): (lod: Lod)
  {
    var dist := Distance(ix, iy, x0, y0);
    if dist > 8 then VeryCoarse
    else if dist > 4 then Coarse
    else Fine
  }

  /**
    The intended policy uses every buffer, only coarsens with distance, and
    agrees with the code except on distances 5 to 8.
   */
  lemma IntendedPolicy(ix: int, iy: int, x0: int, y0: int, jx: int, jy: int)
    ensures Distance(ix, iy, x0, y0) <= Distance(jx, jy, x0, y0) ==>
              Rank(IntendedIndexBuffer(ix, iy, x0, y0)) <= Rank(IntendedIndexBuffer(jx, jy, x0, y0))
    ensures IntendedIndexBuffer(x0 + 5, y0, x0, y0) == Coarse
    ensures (IntendedIndexBuffer(ix, iy, x0, y0) != IndexBuffer(ix, iy, x0, y0))
              <==> (5 <= Distance(ix, iy, x0, y0) <= 8)
  {
  }

  /** A patch at distance 5 shows the discrepancy: the code picks very coarse, the tiers call for coarse. */
  lemma CoarseNeverSelected()
    ensures IndexBuffer(5, 0, 0, 0) == VeryCoarse
    ensures IntendedIndexBuffer(5, 0, 0, 0) == Coarse
  {
  }

  // ---------------------------------------------------------------------
  // Index lists
  // ---------------------------------------------------------------------

  /** Number of quads per side at a resolution: `(VERTICES_PER_SIDE - 1) / resolution`. */
  function QuadsPerSide(resolution: nat): (n: nat)
    requires resolution >= 1
    ensures n * resolution <= VerticesPerSide - 1 < (n + 1) * resolution
  {
    DivBounds(VerticesPerSide - 1, resolution);
    (VerticesPerSide - 1) / resolution
  }

  /** The six indices pushed for quad `(r, c)`, in the order the loop pushes them. */
  function Quad(r: nat, c: nat, resolution: nat): seq<nat>
  {
    var stride := VerticesPerSide;
    [ r * resolution + c * resolution * stride,
      r * resolution + resolution + c * resolution * stride,
      r * resolution + (c * resolution + resolution) * stride,
      r * resolution + (c * resolution + resolution) * stride,
      r * resolution + resolution + c * resolution * stride,
      r * resolution + resolution + (c * resolution + resolution) * stride ]
  }

  /**
    Group `k` of six is two triangles over one square of side `resolution`:
    the corner, the next vertex along a row, the next along a column, then
    the shared edge again and the opposite corner.
   */
  ghost predicate IsQuadAt(s: seq<nat>, k: nat, resolution: nat)
    requires 6 * k + 6 <= |s|
  {
    var b := s[6 * k];
    && s[6 * k + 1] == b + resolution
    && s[6 * k + 2] == b + resolution * VerticesPerSide
    && s[6 * k + 3] == s[6 * k + 2]
    && s[6 * k + 4] == s[6 * k + 1]
    && s[6 * k + 5] == b + resolution + resolution * VerticesPerSide
  }

  /** `s` is a list of whole quads, every one of them well-formed. */
  ghost predicate AllQuads(s: seq<nat>, resolution: nat)
  {
    && |s| % 6 == 0
    && forall k: nat {:trigger IsQuadAt(s, k, resolution)} :: 6 * k + 6 <= |s| ==> IsQuadAt(s, k, resolution)
  }

  /** Every index addresses a vertex of the `VERTICES_PER_SIDE`² grid. */
  ghost predicate InGrid(s: seq<nat>)
  {
    forall i :: 0 <= i < |s| ==> s[i] < VerticesPerSide * VerticesPerSide
  }

  /** A quad whose far corner stays inside the grid only addresses grid vertices. */
  lemma QuadInGrid(r: nat, c: nat, resolution: nat)
    requires (r + 1) * resolution <= VerticesPerSide - 1
    requires (c + 1) * resolution <= VerticesPerSide - 1
    ensures InGrid(Quad(r, c, resolution)) && AllQuads(Quad(r, c, resolution), resolution)
  {
    var q := Quad(r, c, resolution);
    assert IsQuadAt(q, 0, resolution);
    MulMono(VerticesPerSide, (c + 1) * resolution, VerticesPerSide - 1);
  }

  /** Concatenating two lists of well-formed quads gives a list of well-formed quads. */
  lemma {:induction false} AllQuadsConcat(a: seq<nat>, b: seq<nat>, resolution: nat)
    requires AllQuads(a, resolution) && AllQuads(b, resolution)
    ensures AllQuads(a + b, resolution)
  {
    var s := a + b;
    forall k: nat | 6 * k + 6 <= |s|
      ensures IsQuadAt(s, k, resolution)
    {
      if 6 * k + 6 <= |a| {
        assert IsQuadAt(a, k, resolution);
      } else {
        var k' := k - |a| / 6;
        assert 6 * k' + 6 <= |b|;
        assert IsQuadAt(b, k', resolution);
        assert s[6 * k .. 6 * k + 6] == b[6 * k' .. 6 * k' + 6];
      }
    }
  }

  /** The inner loop: quads `(r, c)`, `(r, c + 1)`, ... up to `n - 1`. */
  function RowQuads(r: nat, c: nat, n: nat, resolution: nat): (s: seq<nat>)
    requires r < n && c <= n && n * resolution <= VerticesPerSide - 1
    ensures |s| == 6 * (n - c)
    ensures InGrid(s) && AllQuads(s, resolution)
    decreases n - c
  {
    if c == n then []
    else
      MulMono(resolution, r + 1, n);
      MulMono(resolution, c + 1, n);
      QuadInGrid(r, c, resolution);
      var rest := RowQuads(r, c + 1, n, resolution);
      AllQuadsConcat(Quad(r, c, resolution), rest, resolution);
      Quad(r, c, resolution) + rest
  }

  /** The outer loop: rows `r`, `r + 1`, ... up to `n - 1`, each a full row of quads. */
  function Rows(r: nat, n: nat, resolution: nat): (s: seq<nat>)
    requires r <= n && n * resolution <= VerticesPerSide - 1
    ensures |s| == 6 * n * (n - r)
    ensures InGrid(s) && AllQuads(s, resolution)
    decreases n - r
  {
    if r == n then []
    else
      var row := RowQuads(r, 0, n, resolution);
      var rest := Rows(r + 1, n, resolution);
      AllQuadsConcat(row, rest, resolution);
      row + rest
  }

  /** Group `k` of six indices in `s`, or nothing when `s` is shorter than that. */
  function Group(s: seq<nat>, k: nat): (g: seq<nat>)
    ensures |g| == 6 <==> 6 * k + 6 <= |s|
  {
    if 6 * k + 6 <= |s| then s[6 * k .. 6 * k + 6] else []
  }

  /** Groups of `a + b` come from `a` first, then from `b` shifted by the `m` groups of `a`. */
  lemma GroupAppend(a: seq<nat>, b: seq<nat>, m: nat, k: nat)
    requires |a| == 6 * m
    ensures k < m ==> Group(a + b, k) == Group(a, k)
    ensures k >= m ==> Group(a + b, k) == Group(b, k - m)
  {
    if k < m {
      assert (a + b)[6 * k .. 6 * k + 6] == a[6 * k .. 6 * k + 6];
    } else if 6 * (k - m) + 6 <= |b| {
      assert (a + b)[6 * k .. 6 * k + 6] == b[6 * (k - m) .. 6 * (k - m) + 6];
    }
  }

  /** The inner loop emits quad `(r, c')` as group `c' - c`. */
  lemma {:induction false} RowQuadsAt(r: nat, c: nat, n: nat, resolution: nat)
    requires r < n && c <= n && n * resolution <= VerticesPerSide - 1
    ensures forall c' :: c <= c' < n ==> Group(RowQuads(r, c, n, resolution), c' - c) == Quad(r, c', resolution)
    decreases n - c
  {
    if c < n {
      RowQuadsAt(r, c + 1, n, resolution);
      var rest := RowQuads(r, c + 1, n, resolution);
      forall c' | c <= c' < n
        ensures Group(RowQuads(r, c, n, resolution), c' - c) == Quad(r, c', resolution)
      {
        GroupAppend(Quad(r, c, resolution), rest, 1, c' - c);
      }
    }
  }

  /** Row-major numbering: quad `(r, c)` of a grid `n` quads wide is the `r * n + c`-th. */
  function QuadNumber(r: nat, c: nat, n: nat): nat
  {
    r * n + c
  }

  /** The outer loop emits quad `(r', c')` as group `QuadNumber(r' - r, c', n)`: row after row. */
  lemma {:induction false} RowsAt(r: nat, n: nat, resolution: nat)
    requires r <= n && n * resolution <= VerticesPerSide - 1
    ensures forall r': nat, c': nat :: r <= r' < n && c' < n ==>
      Group(Rows(r, n, resolution), QuadNumber(r' - r, c', n)) == Quad(r', c', resolution)
    decreases n - r
  {
    if r < n {
      RowQuadsAt(r, 0, n, resolution);
      RowsAt(r + 1, n, resolution);
      var row := RowQuads(r, 0, n, resolution);
      var rest := Rows(r + 1, n, resolution);
      forall r': nat, c': nat | r <= r' < n && c' < n
        ensures Group(Rows(r, n, resolution), QuadNumber(r' - r, c', n)) == Quad(r', c', resolution)
      {
        var k := QuadNumber(r' - r, c', n);
        assert Rows(r, n, resolution) == row + rest;
        if r' == r {
          GroupAppend(row, rest, n, k);
          assert Group(row, c' - 0) == Quad(r', c', resolution);
        } else {
          assert k - n == QuadNumber(r' - (r + 1), c', n);
          GroupAppend(row, rest, n, k);
        }
      }
    }
  }

  /**
    `indices`: `6 * ((VERTICES_PER_SIDE - 1) / resolution)²` indices, all
    inside the vertex grid, in groups of six forming two triangles that
    share an edge, and group `r * n + c` is quad `(r, c)`, so the list
    covers the `n` × `n` quads row by row. That is 6·67², 6·16² and 6·8² for the three
    resolutions the patch builds. A resolution of 0 divides by zero and is
    excluded.
   */
  function Indices(resolution: nat): (s: seq<nat>)
    requires resolution >= 1
    ensures |s| == 6 * QuadsPerSide(resolution) * QuadsPerSide(resolution)
    ensures InGrid(s) && AllQuads(s, resolution)
    ensures resolution == 1 ==> |s| == 6 * 67 * 67
    ensures resolution == 4 ==> |s| == 6 * 16 * 16
    ensures resolution == 8 ==> |s| == 6 * 8 * 8
    ensures forall r: nat, c: nat :: r < QuadsPerSide(resolution) && c < QuadsPerSide(resolution) ==>
      Group(s, QuadNumber(r, c, QuadsPerSide(resolution))) == Quad(r, c, resolution)
  {
    var n := QuadsPerSide(resolution);
    RowsAt(0, n, resolution);
    assert forall r: nat, c: nat :: r < n && c < n ==> QuadNumber(r - 0, c, n) == QuadNumber(r, c, n);
    Rows(0, n, resolution)
  }
}

=== FILE: pixels.dfy ===
/**
  Pixel helpers of `src/core.rs`: the channel-count to texture-format map
  used by colour read-back, and the in-place vertical flip applied to the
  rows that come back from the framebuffer (row 0 of the framebuffer is the
  bottom row, row 0 of the returned data must be the top row).
 */
module Pixels {
  import opened Arith

  /** The four GL pixel formats the read path can ask for. */
  datatype Format = Red | Rg | Rgb | Rgba

  /** Number of channels a format carries; the inverse of `FormatFromDataType`. */
  function ChannelCount(f: Format): nat
  {
    match f
    case Red => 1
    case Rg => 2
    case Rgb => 3
    case Rgba => 4
  }

  /**
    `format_from_data_type`: one channel reads as RED, two as RG, three as RGB
    and four as RGBA. Any other count hits `unreachable!()`, so it is excluded
    by the precondition.
   */
  function FormatFromDataType(channels: nat): (f: Format)
    requires 1 <= channels <= 4
    ensures ChannelCount(f) == channels
  {
    if channels == 1 then Red
    else if channels == 2 then Rg
    else if channels == 3 then Rgb
    else Rgba
  }

  /** Every format is produced by exactly its own channel count. */
  lemma FormatRoundTrip(f: Format)
    ensures FormatFromDataType(ChannelCount(f)) == f
  {
  }

  // ---------------------------------------------------------------------
  // Row-major pixel addressing
  // ---------------------------------------------------------------------

  /** The offset of `(row, col)` in a `width`-wide, `height`-tall pixel block. */
  function Idx(width: nat, height: nat, row: nat, col: nat): (i: nat)
    requires row < height && col < width
    ensures i < width * height
  {
    MulMono(width, row + 1, height);
    width * row + col
  }

  /** Distinct `(row, col)` pairs address distinct pixels. */
  lemma IdxInjective(width: nat, height: nat)
    ensures forall r1: nat, c1: nat, r2: nat, c2: nat ::
              r1 < height && c1 < width && r2 < height && c2 < width &&
              Idx(width, height, r1, c1) == Idx(width, height, r2, c2)
              ==> r1 == r2 && c1 == c2
  {
    forall r1: nat, c1: nat, r2: nat, c2: nat |
      r1 < height && c1 < width && r2 < height && c2 < width &&
      Idx(width, height, r1, c1) == Idx(width, height, r2, c2)
      ensures r1 == r2 && c1 == c2
    {
      if r1 < r2 {
        MulStep(width, r1, r2);
        assert false;
      } else if r2 < r1 {
        MulStep(width, r2, r1);
        assert false;
      }
    }
  }

  /** Every offset inside the block is the address of some `(row, col)`. */
  lemma IdxSplit(width: nat, height: nat, i: nat)
    requires i < width * height
    ensures width > 0 && i / width < height
    ensures i == Idx(width, height, i / width, i % width)
  {
    if i / width >= height {
      MulMono(width, height, i / width);
      assert false;
    }
  }

  // ---------------------------------------------------------------------
  // Vertical flip
  // ---------------------------------------------------------------------

  /**
    `r` is `p` with the first `height` rows of `width` pixels in reverse
    order: the pixel at `(row, col)` of `r` is the one at
    `(height - 1 - row, col)` of `p`, and every pixel past the block is
    left where it was.
   */
  ghost predicate IsFlipOf<T>(r: seq<T>, p: seq<T>, width: nat, height: nat)
  {
    && |r| == |p|
    && width * height <= |p|
    && (forall row: nat, col: nat {:trigger Idx(width, height, row, col)} ::
          row < height && col < width ==>
            r[Idx(width, height, row, col)] == p[Idx(width, height, height - 1 - row, col)])
    && (forall i :: width * height <= i < |p| ==> r[i] == p[i])
  }

  /** Exchanges the elements at `i` and `j`, like Rust's `slice::swap`. */
  function Swap<T>(s: seq<T>, i: nat, j: nat): (r: seq<T>)
    requires i < |s| && j < |s|
    ensures |r| == |s| && r[i] == s[j] && r[j] == s[i]
    ensures forall k :: 0 <= k < |s| && k != i && k != j ==> r[k] == s[k]
    ensures multiset(r) == multiset(s)
  {
    s[i := s[j]][j := s[i]]
  }

  /**
    Whether `flip_y` has already exchanged pixel `(rr, c)` once it is about
    to handle column `col` of row `row`: the rows above `row`, their mirror
    rows, and the first `col` pixels of `row` and of its mirror row.
   */
  predicate Swapped(rr: nat, c: nat, row: nat, col: nat, height: nat)
    requires rr < height
  {
    || rr < row
    || height - 1 - rr < row
    || ((rr == row || height - 1 - rr == row) && c < col)
  }

  /**
    The state of `flip_y` just before it handles column `col` of row `row`:
    every exchanged pixel holds its mirror's original value, every other
    pixel its own, and nothing past the block has moved.
   */
  ghost predicate FlipProgress<T>(r: seq<T>, p: seq<T>, width: nat, height: nat, row: nat, col: nat)
  {
    && |r| == |p|
    && width * height <= |p|
    && multiset(r) == multiset(p)
    && (forall i :: width * height <= i < |p| ==> r[i] == p[i])
    && (forall rr: nat, c: nat {:trigger Idx(width, height, rr, c)} ::
          rr < height && c < width ==>
            r[Idx(width, height, rr, c)] ==
            p[Idx(width, height, if Swapped(rr, c, row, col, height) then height - 1 - rr else rr, c)])
  }

  /** Swapping `(row, col)` with its mirror advances the progress by one column. */
  lemma FlipStep<T>(r: seq<T>, p: seq<T>, width: nat, height: nat, row: nat, col: nat)
    requires row < height / 2 && col < width
    requires FlipProgress(r, p, width, height, row, col)
    ensures FlipProgress(Swap(r, Idx(width, height, row, col), Idx(width, height, height - row - 1, col)),
                         p, width, height, row, col + 1)
  {
    IdxInjective(width, height);
  }

  /** Once all rows of the upper half are exchanged, the buffer is the flip of the input. */
  lemma FlipDone<T>(r: seq<T>, p: seq<T>, width: nat, height: nat)
    requires FlipProgress(r, p, width, height, height / 2, 0)
    ensures IsFlipOf(r, p, width, height)
  {
  }

  /** Having swapped all of row `row` is the same progress as starting row `row + 1`. */
  lemma NextRow<T>(r: seq<T>, p: seq<T>, width: nat, height: nat, row: nat)
    requires row < height / 2
    requires FlipProgress(r, p, width, height, row, width)
    ensures FlipProgress(r, p, width, height, row + 1, 0)
  {
  }

  /** The inner loop of `flip_y`: swap row `row` pixel by pixel with its mirror row. */
  method FlipRow<T>(r0: seq<T>, p: seq<T>, width: nat, height: nat, row: nat) returns (r: seq<T>)
    requires row < height / 2
    requires FlipProgress(r0, p, width, height, row, 0)
    ensures FlipProgress(r, p, width, height, row + 1, 0)
  {
    r := r0;
    var col := 0;
    while col < width
      invariant col <= width
      invariant FlipProgress(r, p, width, height, row, col)
    {
      var index0 := Idx(width, height, row, col);
      var index1 := Idx(width, height, height - row - 1, col);
      FlipStep(r, p, width, height, row, col);
      r := Swap(r, index0, index1);
      col := col + 1;
    }
    NextRow(r, p, width, height, row);
  }

  /**
    `flip_y`: for every row in the upper half, swap it pixel by pixel with
    its mirror row. The model asks for at least `width * height` pixels, as
    the colour read always passes `width * height * k` values; with fewer,
    `swap` would panic once a mirror row lies past the end. The result is
    the flip of the input, a permutation of it, and for an odd height the
    middle row stays put.
   */
  method FlipY<T>(pixels: seq<T>, width: nat, height: nat) returns (r: seq<T>)
    requires width * height <= |pixels|
    ensures IsFlipOf(r, pixels, width, height)
    ensures multiset(r) == multiset(pixels)
    ensures height % 2 == 1 ==>
              forall col: nat :: col < width ==>
                r[Idx(width, height, height / 2, col)] == pixels[Idx(width, height, height / 2, col)]
  {
    r := pixels;
    var row := 0;
    while row < height / 2
      invariant row <= height / 2
      invariant FlipProgress(r, pixels, width, height, row, 0)
    {
      r := FlipRow(r, pixels, width, height, row);
      row := row + 1;
    }
    FlipDone(r, pixels, width, height);
  }

  /** Flipping is symmetric: if `r` is the flip of `p`, `p` is the flip of `r`. */
  lemma {:induction false} FlipSymmetric<T>(r: seq<T>, p: seq<T>, width: nat, height: nat)
    requires IsFlipOf(r, p, width, height)
    ensures IsFlipOf(p, r, width, height)
  {
    forall row: nat, col: nat | row < height && col < width
      ensures p[Idx(width, height, row, col)] == r[Idx(width, height, height - 1 - row, col)]
    {
      assert r[Idx(width, height, height - 1 - row, col)]
          == p[Idx(width, height, height - 1 - (height - 1 - row), col)];
    }
  }

  /** The flip of a buffer is unique: two flips of the same input agree everywhere. */
  lemma {:induction false} FlipUnique<T>(a: seq<T>, b: seq<T>, p: seq<T>, width: nat, height: nat)
    requires IsFlipOf(a, p, width, height) && IsFlipOf(b, p, width, height)
    ensures a == b
  {
    forall i | 0 <= i < |a|
      ensures a[i] == b[i]
    {
      if i < width * height {
        IdxSplit(width, height, i);
        var row, col := i / width, i % width;
        assert a[Idx(width, height, row, col)] == b[Idx(width, height, row, col)];
      }
    }
  }

  /** `flip_y` is an involution: flipping the flipped buffer restores the original. */
  lemma {:induction false} FlipInvolution<T>(p: seq<T>, q: seq<T>, r: seq<T>, width: nat, height: nat)
    requires IsFlipOf(q, p, width, height)
    requires IsFlipOf(r, q, width, height)
    ensures r == p
  {
    FlipSymmetric(q, p, width, height);
    FlipUnique(r, p, q, width, height);
  }
}

=== FILE: render_target.dfy ===
/**
  `RenderTarget` of `src/core/render_target.rs`: a record holding an optional
  framebuffer id (`None` is the screen), optional colour and depth
  attachments and a cached size. Every operation is modelled as a pure
  function or method that yields either the panic the Rust code raises or
  the ordered list of GL calls it issues.
 */
module RenderTargets {
  import opened Wrappers
  import Pixels
  import opened Arith

  /** An opaque GL framebuffer handle. */
  type Framebuffer = nat

  /**
    A colour or depth attachment, reduced to what the render target uses of
    it: its size (already scaled to its mip level).
   */
  datatype Attachment = Attachment(width: nat, height: nat)

  datatype RenderTarget = RenderTarget(
    id: Option<Framebuffer>,
    color: Option<Attachment>,
    depth: Option<Attachment>,
    width: nat,
    height: nat)

  /** A pixel rectangle; `(x, y)` is its lower-left corner. */
  datatype ScissorBox = ScissorBox(x: int, y: int, width: nat, height: nat)

  /** Which channels a draw may change. */
  datatype WriteMask = WriteMask(red: bool, green: bool, blue: bool, alpha: bool, depth: bool)

  /** The two framebuffer binding points the code uses. */
  datatype BindPoint = DrawFramebuffer | ReadFramebuffer

  /** The opaque clear state; only its identity matters to the trace. */
  type ClearState = nat

  /**
    The GL-level effects the operations issue, in order. `Render` stands for
    everything the caller's closure does; `ApplyEffect` is the full-screen
    copy pass with its effective write mask and viewport.
   */
  datatype GlCall =
    | SetScissor(box: ScissorBox)
    | BindFramebuffer(point: BindPoint, target: Option<Framebuffer>)
    | BindColor
    | BindDepth
    | ApplyClear(state: ClearState)
    | Render
    | GenerateMipMaps
    | ApplyEffect(viewport: ScissorBox, mask: WriteMask)
    | ReadPixels(box: ScissorBox, format: Pixels.Format, bytes: nat)
    | ReadDepthPixels(box: ScissorBox, bytes: nat)
    | DeleteFramebuffer(handle: Framebuffer)

  // ---------------------------------------------------------------------
  // Construction and teardown
  // ---------------------------------------------------------------------

  /** `scissor_box`: the box enclosing the whole target, anchored at the origin. */
  function FullBox(rt: RenderTarget): (b: ScissorBox)
    ensures b.x == 0 && b.y == 0 && b.width == rt.width && b.height == rt.height
  {
    ScissorBox(0, 0, rt.width, rt.height)
  }

  /** `Drop`: the framebuffer is deleted exactly when the target owns one. */
  function Drop(rt: RenderTarget): (calls: seq<GlCall>)
    ensures |calls| <= 1
    ensures calls != [] <==> rt.id.Some?
    ensures rt.id.Some? ==> calls == [DeleteFramebuffer(rt.id.value)]
  {
    match rt.id
    case Some(fb) => [DeleteFramebuffer(fb)]
    case None => []
  }

  /** Reading colour panics exactly for a framebuffer without a colour attachment. */
  predicate CanReadColor(rt: RenderTarget)
  {
    !(rt.id.Some? && rt.color.None?)
  }

  /** Reading depth panics exactly for a framebuffer without a depth attachment. */
  predicate CanReadDepth(rt: RenderTarget)
  {
    !(rt.id.Some? && rt.depth.None?)
  }

  /**
    `screen`: the default framebuffer. It owns nothing, so dropping it deletes
    nothing, both reads are allowed, and its full box is the given size.
   */
  function Screen(width: nat, height: nat): (rt: RenderTarget)
    ensures rt.id.None? && rt.color.None? && rt.depth.None?
    ensures FullBox(rt) == ScissorBox(0, 0, width, height)
    ensures CanReadColor(rt) && CanReadDepth(rt)
    ensures Drop(rt) == []
  {
    RenderTarget(None, None, None, width, height)
  }

  /**
    `new_framebuffer`: `create_framebuffer().expect(..)`. The handle the
    driver returns is a parameter; `None` models a failed creation, which
    panics.
   */
  function NewFramebuffer(created: Option<Framebuffer>): (r: Result<Framebuffer>)
    ensures r.Success? <==> created.Some?
    ensures r.Success? ==> r.value == created.value
  {
    match created
    case Some(fb) => Success(fb)
    case None => Failure("Failed creating frame buffer")
  }

  /**
    `new`: a framebuffer with both attachments. The size is taken from the
    colour attachment; the depth attachment's size is not compared with it.
   */
  function New(color: Attachment, depth: Attachment, created: Option<Framebuffer>): (r: Result<RenderTarget>)
    ensures r.Success? <==> created.Some?
    ensures r.Success? ==>
              && FullBox(r.value) == ScissorBox(0, 0, color.width, color.height)
              && CanReadColor(r.value) && CanReadDepth(r.value)
              && Drop(r.value) == [DeleteFramebuffer(created.value)]
  {
    match NewFramebuffer(created)
    case Success(fb) => Success(RenderTarget(Some(fb), Some(color), Some(depth), color.width, color.height))
    case Failure(msg) => Failure(msg)
  }

  /** `new_color`: a framebuffer with only a colour attachment, sized by it. */
  function NewColor(color: Attachment, created: Option<Framebuffer>): (r: Result<RenderTarget>)
    ensures r.Success? <==> created.Some?
    ensures r.Success? ==>
              && FullBox(r.value) == ScissorBox(0, 0, color.width, color.height)
              && CanReadColor(r.value) && !CanReadDepth(r.value)
              && Drop(r.value) == [DeleteFramebuffer(created.value)]
  {
    match NewFramebuffer(created)
    case Success(fb) => Success(RenderTarget(Some(fb), Some(color), None, color.width, color.height))
    case Failure(msg) => Failure(msg)
  }

  /** `new_depth`: a framebuffer with only a depth attachment, sized by it. */
  function NewDepth(depth: Attachment, created: Option<Framebuffer>): (r: Result<RenderTarget>)
    ensures r.Success? <==> created.Some?
    ensures r.Success? ==>
              && FullBox(r.value) == ScissorBox(0, 0, depth.width, depth.height)
              && !CanReadColor(r.value) && CanReadDepth(r.value)
              && Drop(r.value) == [DeleteFramebuffer(created.value)]
  {
    match NewFramebuffer(created)
    case Success(fb) => Success(RenderTarget(Some(fb), None, Some(depth), depth.width, depth.height))
    case Failure(msg) => Failure(msg)
  }

  /**
    `from_framebuffer`: wraps a foreign framebuffer without attachments. Both
    reads panic on it, and dropping it deletes the foreign framebuffer.
   */
  function FromFramebuffer(width: nat, height: nat, fb: Framebuffer): (rt: RenderTarget)
    ensures FullBox(rt) == ScissorBox(0, 0, width, height)
    ensures !CanReadColor(rt) && !CanReadDepth(rt)
    ensures Drop(rt) == [DeleteFramebuffer(fb)]
  {
    RenderTarget(Some(fb), None, None, width, height)
  }

  /**
    `into_framebuffer`: takes the id out of the target, so that the drop that
    follows deletes nothing. Returns the id and the emptied target.
   */
  function IntoFramebuffer(rt: RenderTarget): (r: (Option<Framebuffer>, RenderTarget))
    ensures r.0 == rt.id
    ensures Drop(r.1) == []
    ensures r.1.color == rt.color && r.1.depth == rt.depth && FullBox(r.1) == FullBox(rt)
  {
    (rt.id, rt.(id := None))
  }

  /** `from_framebuffer` and `into_framebuffer` are inverse on the handle. */
  lemma FramebufferRoundTrip(width: nat, height: nat, fb: Framebuffer)
    ensures IntoFramebuffer(FromFramebuffer(width, height, fb)).0 == Some(fb)
    ensures Drop(IntoFramebuffer(FromFramebuffer(width, height, fb)).1) == []
  {
  }

  // ---------------------------------------------------------------------
  // Binding, clearing and writing
  // ---------------------------------------------------------------------

  /**
    `bind`: binds the framebuffer (or the screen) at `point`, then attaches
    the colour target if there is one, then the depth target if there is one.
   */
  function Bind(rt: RenderTarget, point: BindPoint): (calls: seq<GlCall>)
    ensures 1 <= |calls| <= 3
    ensures calls[0] == BindFramebuffer(point, rt.id)
    ensures BindColor in calls <==> rt.color.Some?
    ensures BindDepth in calls <==> rt.depth.Some?
    ensures forall k :: 1 <= k < |calls| ==> calls[k] == BindColor || calls[k] == BindDepth
  {
    [BindFramebuffer(point, rt.id)]
    + (if rt.color.Some? then [BindColor] else [])
    + (if rt.depth.Some? then [BindDepth] else [])
  }

  /** `clear_partially`: scissor first, then bind for drawing, then clear. */
  function ClearPartially(rt: RenderTarget, box: ScissorBox, state: ClearState): (calls: seq<GlCall>)
    ensures |calls| >= 3
    ensures calls[0] == SetScissor(box)
    ensures calls[1..|calls| - 1] == Bind(rt, DrawFramebuffer)
    ensures calls[|calls| - 1] == ApplyClear(state)
  {
    [SetScissor(box)] + Bind(rt, DrawFramebuffer) + [ApplyClear(state)]
  }

  /** `clear`: clears the whole target. */
  function Clear(rt: RenderTarget, state: ClearState): (calls: seq<GlCall>)
    ensures |calls| >= 3 && calls[0] == SetScissor(ScissorBox(0, 0, rt.width, rt.height))
    ensures ApplyClear(state) in calls
  {
    ClearPartially(rt, FullBox(rt), state)
  }

  /**
    `write_partially`: scissor, bind for drawing, run the caller's work, and
    only afterwards regenerate the colour mip chain if a colour attachment
    exists. `work` is the list of calls the closure issues.
   */
  function WritePartially(rt: RenderTarget, box: ScissorBox, work: seq<GlCall>): (calls: seq<GlCall>)
    ensures var n := 1 + |Bind(rt, DrawFramebuffer)|;
            && |calls| == n + |work| + (if rt.color.Some? then 1 else 0)
            && calls[0] == SetScissor(box)
            && calls[1..n] == Bind(rt, DrawFramebuffer)
            && calls[n..n + |work|] == work
            && (rt.color.Some? ==> calls[|calls| - 1] == GenerateMipMaps)
  {
    [SetScissor(box)] + Bind(rt, DrawFramebuffer) + work
    + (if rt.color.Some? then [GenerateMipMaps] else [])
  }

  /** `write`: writes through the whole target. */
  function Write(rt: RenderTarget, work: seq<GlCall>): (calls: seq<GlCall>)
    ensures |calls| >= 2 && calls[0] == SetScissor(ScissorBox(0, 0, rt.width, rt.height))
    ensures GenerateMipMaps in calls <== rt.color.Some?
  {
    WritePartially(rt, FullBox(rt), work)
  }

  /**
    Mip regeneration follows the work and happens at most once: the trace
    ends with it exactly when there is a colour attachment, whenever the
    caller's work itself does not regenerate mips.
   */
  lemma {:induction false} WriteMipsLast(rt: RenderTarget, box: ScissorBox, work: seq<GlCall>)
    requires GenerateMipMaps !in work
    ensures var calls := WritePartially(rt, box, work);
            (GenerateMipMaps in calls <==> rt.color.Some?)
            && (rt.color.Some? ==> calls[|calls| - 1] == GenerateMipMaps)
  {
    var b := Bind(rt, DrawFramebuffer);
    var calls := WritePartially(rt, box, work);
    assert calls == [SetScissor(box)] + b + work + (if rt.color.Some? then [GenerateMipMaps] else []);
    assert GenerateMipMaps !in b;
  }

  // ---------------------------------------------------------------------
  // copy_from / copy_from_array
  // ---------------------------------------------------------------------

  /**
    The write mask the copy pass really uses: colour channels only when a
    colour source is given, depth only when a depth source is given.
   */
  function EffectiveMask(hasColor: bool, hasDepth: bool, mask: WriteMask): (m: WriteMask)
    ensures !hasColor ==> !m.red && !m.green && !m.blue && !m.alpha
    ensures !hasDepth ==> !m.depth
    ensures hasColor ==> m.red == mask.red && m.green == mask.green && m.blue == mask.blue && m.alpha == mask.alpha
    ensures hasDepth ==> m.depth == mask.depth
  {
    WriteMask(hasColor && mask.red, hasColor && mask.green, hasColor && mask.blue,
              hasColor && mask.alpha, hasDepth && mask.depth)
  }

  /**
    The free `copy_from` / `copy_from_array` helpers: nothing at all when
    neither source is given, otherwise one copy pass with the effective mask.
    Which texture kind (2D or array layer) is sampled does not change the
    calls, so both helpers share this definition.
   */
  function CopyPass(hasColor: bool, hasDepth: bool, viewport: ScissorBox, mask: WriteMask): (calls: seq<GlCall>)
    ensures calls == [] <==> !hasColor && !hasDepth
    ensures calls != [] ==> calls == [ApplyEffect(viewport, EffectiveMask(hasColor, hasDepth, mask))]
  {
    if hasColor || hasDepth then [ApplyEffect(viewport, EffectiveMask(hasColor, hasDepth, mask))] else []
  }

  /**
    `RenderTarget::copy_from` (and `copy_from_array`): a full-target `write`
    whose work is the copy pass restricted to `box`. With no sources the
    pass is empty, but the surrounding write still scissors, binds and,
    when there is a colour attachment, regenerates mips.
   */
  function CopyFrom(rt: RenderTarget, hasColor: bool, hasDepth: bool, box: ScissorBox, mask: WriteMask): (calls: seq<GlCall>)
    ensures !hasColor && !hasDepth ==> calls == Write(rt, [])
    ensures (hasColor || hasDepth) ==>
              ApplyEffect(box, EffectiveMask(hasColor, hasDepth, mask)) in calls
  {
    Write(rt, CopyPass(hasColor, hasDepth, box, mask))
  }

  // ---------------------------------------------------------------------
  // Reading
  // ---------------------------------------------------------------------

  /**
    A Rust pixel type: `channels` values of `bytesPerChannel` bytes each, so
    `size_of::<T>()` is their product.
   */
  datatype PixelType = PixelType(channels: nat, bytesPerChannel: nat)
  {
    predicate Valid() { 1 <= channels <= 4 && bytesPerChannel >= 1 }
    function SizeOf(): nat { channels * bytesPerChannel }
  }

  /**
    The bytes read per pixel: `size_of::<T>()`, widened by `4 / channels`
    (integer division) when every channel is one byte, because the web
    platform only reads bytes as RGBA.
   */
  function DataSize(t: PixelType): (n: nat)
    requires t.Valid()
    ensures t.bytesPerChannel == 1 ==> n == t.channels * (4 / t.channels)
    ensures t.bytesPerChannel != 1 ==> n == t.SizeOf()
    ensures n >= t.SizeOf() && n % t.SizeOf() == 0
  {
    var size := t.SizeOf();
    if size / t.channels == 1 then size * (4 / t.channels) else size
  }

  /** Number of `T` values the byte buffer of a colour read reinterprets to. */
  function ColorReadLength(box: ScissorBox, t: PixelType): (n: nat)
    requires t.Valid()
    ensures n >= box.width * box.height
  {
    var per := DataSize(t) / t.SizeOf();
    assert per >= 1;
    MulMono(box.width * box.height, 1, per);
    box.width * box.height * per
  }

  /** What a successful read yields: the calls it issued and the pixel values. */
  datatype ReadResult<T> = ReadResult(calls: seq<GlCall>, pixels: seq<T>)

  /**
    `read_color_partially`. Panics for a framebuffer without colour
    attachment; otherwise binds for drawing and for reading, reads
    `width * height * DataSize` bytes in the format matching the channel
    count, and returns them with the rows flipped. `device` is what the
    driver writes into the buffer, already reinterpreted as `T` values.
   */
  method ReadColorPartially<T>(rt: RenderTarget, box: ScissorBox, t: PixelType, device: seq<T>)
    returns (r: Result<ReadResult<T>>)
    requires t.Valid()
    requires |device| == ColorReadLength(box, t)
    ensures r.Failure? <==> rt.id.Some? && rt.color.None?
    ensures r.Success? ==>
              && r.value.calls == Bind(rt, DrawFramebuffer) + Bind(rt, ReadFramebuffer)
                                  + [ReadPixels(box, Pixels.FormatFromDataType(t.channels),
                                                box.width * box.height * DataSize(t))]
              && Pixels.IsFlipOf(r.value.pixels, device, box.width, box.height)
              && multiset(r.value.pixels) == multiset(device)
  {
    if rt.id.Some? && rt.color.None? {
      return Failure("cannot read color from a render target without a color target");
    }
    var bytes := box.width * box.height * DataSize(t);
    var calls := Bind(rt, DrawFramebuffer) + Bind(rt, ReadFramebuffer)
                 + [ReadPixels(box, Pixels.FormatFromDataType(t.channels), bytes)];
    var pixels := Pixels.FlipY(device, box.width, box.height);
    r := Success(ReadResult(calls, pixels));
  }

  /** `read_color`: reads the whole target. */
  method ReadColor<T>(rt: RenderTarget, t: PixelType, device: seq<T>) returns (r: Result<ReadResult<T>>)
    requires t.Valid()
    requires |device| == ColorReadLength(FullBox(rt), t)
    ensures r.Failure? <==> !CanReadColor(rt)
    ensures r.Success? ==>
              && ReadPixels(ScissorBox(0, 0, rt.width, rt.height), Pixels.FormatFromDataType(t.channels),
                            rt.width * rt.height * DataSize(t)) in r.value.calls
              && Pixels.IsFlipOf(r.value.pixels, device, rt.width, rt.height)
  {
    r := ReadColorPartially(rt, FullBox(rt), t, device);
  }

  /**
    `read_depth_partially`. Panics for a framebuffer without depth
    attachment; otherwise reads four bytes (one `f32`) per pixel and returns
    them as they come, without flipping.
   */
  function ReadDepthPartially<T>(rt: RenderTarget, box: ScissorBox, device: seq<T>): (r: Result<ReadResult<T>>)
    requires |device| == box.width * box.height
    ensures r.Failure? <==> !CanReadDepth(rt)
    ensures r.Success? ==>
              && r.value.calls == Bind(rt, DrawFramebuffer) + Bind(rt, ReadFramebuffer)
                                  + [ReadDepthPixels(box, 4 * box.width * box.height)]
              && r.value.pixels == device
  {
    if rt.id.Some? && rt.depth.None? then
      Failure("cannot read depth from a render target without a depth target")
    else
      var calls := Bind(rt, DrawFramebuffer) + Bind(rt, ReadFramebuffer)
                   + [ReadDepthPixels(box, box.width * box.height * 4)];
      Success(ReadResult(calls, device))
  }

  /** `read_depth`: reads the whole target. */
  function ReadDepth<T>(rt: RenderTarget, device: seq<T>): (r: Result<ReadResult<T>>)
    requires |device| == rt.width * rt.height
    ensures r.Failure? <==> rt.id.Some? && rt.depth.None?
    ensures r.Success? ==> ReadDepthPixels(FullBox(rt), 4 * rt.width * rt.height) in r.value.calls
  {
    ReadDepthPartially(rt, FullBox(rt), device)
  }

  /** Screen targets never panic on a read; foreign framebuffers always do. */
  lemma ReadPanics(width: nat, height: nat, fb: Framebuffer)
    ensures CanReadColor(Screen(width, height)) && CanReadDepth(Screen(width, height))
    ensures !CanReadColor(FromFramebuffer(width, height, fb))
    ensures !CanReadDepth(FromFramebuffer(width, height, fb))
  {
  }

  // ---------------------------------------------------------------------
  // Mip sizes
  // ---------------------------------------------------------------------

  function Pow2(n: nat): (p: nat)
    ensures p >= 1
  {
    if n == 0 then 1 else 2 * Pow2(n - 1)
  }

  /**
    `size_with_mip`: the size of mip level `mip`, `size / 2^mip`, or `size`
    itself without a level. `2u32.pow(mip)` overflows from level 32 on, which
    panics, so the level is required to be below 32.
   */
  function SizeWithMip(size: nat, mip: Option<nat>): (s: nat)
    requires mip.Some? ==> mip.value < 32
    ensures s <= size
    ensures mip.None? || mip == Some(0) ==> s == size
  {
    match mip
    case None => size
    case Some(m) =>
      var d := Pow2(m);
      DivBounds(size, d);
      size / d
  }

  /** A mip level's size is the number of whole `2^mip` blocks in the base size. */
  lemma SizeWithMipBounds(size: nat, m: nat)
    requires m < 32
    ensures var s := SizeWithMip(size, Some(m));
            s * Pow2(m) <= size < (s + 1) * Pow2(m)
  {
    DivBounds(size, Pow2(m));
  }

  /** Each mip level halves (rounding down) the size of the level above it. */
  lemma {:induction false} SizeWithMipHalves(size: nat, m: nat)
    requires m < 31
    ensures SizeWithMip(size, Some(m + 1)) == SizeWithMip(size, Some(m)) / 2
  {
    var d := Pow2(m);
    var q, r := size / d, size % d;
    var q2, r2 := q / 2, q % 2;
    assert size == (q2 * 2 + r2) * d + r;
    assert size == q2 * (2 * d) + (r2 * d + r);
    assert r2 * d + r < 2 * d;
    DivUnique(size, 2 * d, q2, r2 * d + r);
  }
}

=== FILE: terrain.dfy ===
/**
  Terrain paging of `src/renderer/geometry/terrain.rs`. A terrain keeps one
  ground patch per integer patch coordinate `(ix, iy)` in a square window of
  33 x 33 coordinates around a center patch. `new` fills the window column by
  column; `update` walks the center one unit at a time towards the target
  patch (x first, then y), pushing the column or row that enters the window at
  every step, and finally keeps only the patches inside the window around the
  target. A patch is modelled by its coordinate only: its GPU buffers and
  heights are left out, and the target patch is an integer input, so the float
  `floor` of `pos2patch` is not part of the model.
 */
module TerrainPaging {

  /** `PATCHES_PER_SIDE`. */
  const PatchesPerSide: nat := 33
  /** `HALF_PATCHES_PER_SIDE = (PATCHES_PER_SIDE - 1) / 2`. */
  const Half: int := 16

  /** A patch coordinate `(ix, iy)`. */
  type Patch = (int, int)

  /** The paging state: the current center patch and the patches in push order. */
  datatype Terrain = Terrain(center: Patch, patches: seq<Patch>)

  /**
    The `retain` condition `|x0 - ix| <= 16 && |y0 - iy| <= 16`, with each
    absolute value written as a pair of comparisons.
   */
  predicate InWindow(p: Patch, center: Patch)
  {
    -Half <= center.0 - p.0 <= Half && -Half <= center.1 - p.1 <= Half
  }

  /** The closed integer rectangle `[xlo, xhi] x [ylo, yhi]`; empty when a bound is crossed. */
  datatype Rect = Rect(xlo: int, xhi: int, ylo: int, yhi: int)
  {
    predicate Contains(p: Patch) { xlo <= p.0 <= xhi && ylo <= p.1 <= yhi }
    predicate IsEmpty() { xhi < xlo || yhi < ylo }
  }

  /** The 33 x 33 window around a center. */
  function Window(center: Patch): Rect
  {
    Rect(center.0 - Half, center.0 + Half, center.1 - Half, center.1 + Half)
  }

  /** The window rectangle holds exactly the coordinates the `retain` condition keeps. */
  lemma WindowMeans(center: Patch)
    ensures forall p :: Window(center).Contains(p) <==> InWindow(p, center)
  {
  }

  /** Two rectangles share no coordinate. */
  predicate Disjoint(a: Rect, b: Rect)
  {
    a.IsEmpty() || b.IsEmpty() || a.xhi < b.xlo || b.xhi < a.xlo || a.yhi < b.ylo || b.yhi < a.ylo
  }

  /** The coordinates of a rectangle, as a set. */
  ghost function Cells(b: Rect): set<Patch>
  {
    set x: int, y: int | b.xlo <= x <= b.xhi && b.ylo <= y <= b.yhi :: (x, y)
  }

  /** Membership in `Cells(b)` is containment in `b`. */
  lemma CellsMeans(b: Rect)
    ensures forall p :: p in Cells(b) <==> b.Contains(p)
  {
    forall p | b.Contains(p) ensures p in Cells(b) {
      assert p == (p.0, p.1);
    }
  }

  /**
    `s` lists every coordinate of `b` exactly once and nothing else: the
    central invariant of the paging code ("no duplicates, no gaps").
   */
  ghost predicate Exactly(s: seq<Patch>, b: Rect)
  {
    multiset(s) == multiset(Cells(b))
  }

  /** The terrain holds exactly the window around its center. */
  ghost predicate IsWindow(t: Terrain)
  {
    Exactly(t.patches, Window(t.center))
  }

  /** `Exactly` unfolded: no coordinate twice, and the members are the rectangle's coordinates. */
  lemma ExactlyMeans(s: seq<Patch>, b: Rect)
    ensures Exactly(s, b) <==> (forall p :: multiset(s)[p] <= 1) && (forall p :: p in s <==> b.Contains(p))
  {
    CellsMeans(b);
    if (forall p :: multiset(s)[p] <= 1) && (forall p :: p in s <==> b.Contains(p)) {
      forall p ensures multiset(s)[p] == multiset(Cells(b))[p] {
        if b.Contains(p) {
          assert p in s;
        }
      }
      assert multiset(s) == multiset(Cells(b));
    }
    if Exactly(s, b) {
      forall p ensures p in s <==> b.Contains(p) {
        assert p in s <==> multiset(s)[p] > 0;
      }
    }
  }

  /** The multiset of a disjoint union is the sum of the multisets. */
  lemma SetUnionMultiset(a: set<Patch>, b: set<Patch>)
    requires a !! b
    ensures multiset(a + b) == multiset(a) + multiset(b)
  {
    forall p ensures multiset(a + b)[p] == (multiset(a) + multiset(b))[p] {}
  }

  /** Listing two disjoint rectangles one after the other lists their union exactly. */
  lemma ExactlyConcat(a: seq<Patch>, b: seq<Patch>, ra: Rect, rb: Rect, r: Rect)
    requires Exactly(a, ra) && Exactly(b, rb) && Disjoint(ra, rb)
    requires forall p :: r.Contains(p) <==> ra.Contains(p) || rb.Contains(p)
    ensures Exactly(a + b, r)
  {
    assert multiset(a + b) == multiset(a) + multiset(b);
    CellsMeans(r);
    CellsMeans(ra);
    CellsMeans(rb);
    assert Cells(r) == Cells(ra) + Cells(rb);
    SetUnionMultiset(Cells(ra), Cells(rb));
  }

  /** An empty rectangle is listed by the empty sequence. */
  lemma EmptyExactly(b: Rect)
    requires b.IsEmpty()
    ensures Exactly([], b)
  {
    CellsMeans(b);
    assert Cells(b) == {};
  }

  /** A one-cell rectangle is listed by its one coordinate. */
  lemma SingleExactly(p: Patch)
    ensures Exactly([p], Rect(p.0, p.0, p.1, p.1))
  {
    CellsMeans(Rect(p.0, p.0, p.1, p.1));
    assert Cells(Rect(p.0, p.0, p.1, p.1)) == {p};
  }

  /** The inner `for iy in ylo..yhi + 1` loop: column `ix` from `ylo` up to `yhi`. */
  function Column(ix: int, ylo: int, yhi: int): (s: seq<Patch>)
    requires ylo <= yhi + 1
    ensures |s| == yhi - ylo + 1
    decreases yhi - ylo + 1
  {
    if yhi < ylo then [] else Column(ix, ylo, yhi - 1) + [(ix, yhi)]
  }

  /** The inner `for ix in xlo..xhi + 1` loop: row `iy` from `xlo` up to `xhi`. */
  function Row(iy: int, xlo: int, xhi: int): (s: seq<Patch>)
    requires xlo <= xhi + 1
    ensures |s| == xhi - xlo + 1
    decreases xhi - xlo + 1
  {
    if xhi < xlo then [] else Row(iy, xlo, xhi - 1) + [(xhi, iy)]
  }

  /** Columns `xlo`, `xlo + 1`, ..., `xhi`, in that order (the `new` nest and the `x0 > center.0` loop). */
  function Grid(xlo: int, xhi: int, ylo: int, yhi: int): seq<Patch>
    requires xlo <= xhi + 1 && ylo <= yhi + 1
    decreases xhi - xlo + 1
  {
    if xhi < xlo then [] else Grid(xlo, xhi - 1, ylo, yhi) + Column(xhi, ylo, yhi)
  }

  /** Columns `xhi`, `xhi - 1`, ..., `xlo`, in that order (the `x0 < center.0` loop). */
  function ColumnsLeft(xlo: int, xhi: int, ylo: int, yhi: int): seq<Patch>
    requires xlo <= xhi + 1 && ylo <= yhi + 1
    decreases xhi - xlo + 1
  {
    if xhi < xlo then [] else ColumnsLeft(xlo + 1, xhi, ylo, yhi) + Column(xlo, ylo, yhi)
  }

  /** Rows `ylo`, ..., `yhi`, in that order (the `y0 > center.1` loop). */
  function RowsUp(xlo: int, xhi: int, ylo: int, yhi: int): seq<Patch>
    requires xlo <= xhi + 1 && ylo <= yhi + 1
    decreases yhi - ylo + 1
  {
    if yhi < ylo then [] else RowsUp(xlo, xhi, ylo, yhi - 1) + Row(yhi, xlo, xhi)
  }

  /** Rows `yhi`, ..., `ylo`, in that order (the `y0 < center.1` loop). */
  function RowsDown(xlo: int, xhi: int, ylo: int, yhi: int): seq<Patch>
    requires xlo <= xhi + 1 && ylo <= yhi + 1
    decreases yhi - ylo + 1
  {
    if yhi < ylo then [] else RowsDown(xlo, xhi, ylo + 1, yhi) + Row(ylo, xlo, xhi)
  }

  /** A column's `i`-th entry is `(ix, ylo + i)`. */
  lemma {:induction false} ColumnAt(ix: int, ylo: int, yhi: int)
    requires ylo <= yhi + 1
    ensures forall i :: 0 <= i < |Column(ix, ylo, yhi)| ==> Column(ix, ylo, yhi)[i] == (ix, ylo + i)
    decreases yhi - ylo + 1
  {
    if ylo <= yhi {
      ColumnAt(ix, ylo, yhi - 1);
    }
  }

  /** A column lists its rectangle exactly. */
  lemma {:induction false} ColumnExactly(ix: int, ylo: int, yhi: int)
    requires ylo <= yhi + 1
    ensures Exactly(Column(ix, ylo, yhi), Rect(ix, ix, ylo, yhi))
    decreases yhi - ylo + 1
  {
    if yhi < ylo {
      EmptyExactly(Rect(ix, ix, ylo, yhi));
    } else {
      ColumnExactly(ix, ylo, yhi - 1);
      SingleExactly((ix, yhi));
      ExactlyConcat(Column(ix, ylo, yhi - 1), [(ix, yhi)],
                    Rect(ix, ix, ylo, yhi - 1), Rect(ix, ix, yhi, yhi), Rect(ix, ix, ylo, yhi));
    }
  }

  /** A row lists its rectangle exactly. */
  lemma {:induction false} RowExactly(iy: int, xlo: int, xhi: int)
    requires xlo <= xhi + 1
    ensures Exactly(Row(iy, xlo, xhi), Rect(xlo, xhi, iy, iy))
    decreases xhi - xlo + 1
  {
    if xhi < xlo {
      EmptyExactly(Rect(xlo, xhi, iy, iy));
    } else {
      RowExactly(iy, xlo, xhi - 1);
      SingleExactly((xhi, iy));
      ExactlyConcat(Row(iy, xlo, xhi - 1), [(xhi, iy)],
                    Rect(xlo, xhi - 1, iy, iy), Rect(xhi, xhi, iy, iy), Rect(xlo, xhi, iy, iy));
    }
  }

  /** Columns pushed left to right list their rectangle exactly. */
  lemma {:induction false} GridExactly(xlo: int, xhi: int, ylo: int, yhi: int)
    requires xlo <= xhi + 1 && ylo <= yhi + 1
    ensures Exactly(Grid(xlo, xhi, ylo, yhi), Rect(xlo, xhi, ylo, yhi))
    decreases xhi - xlo + 1
  {
    if xhi < xlo {
      EmptyExactly(Rect(xlo, xhi, ylo, yhi));
    } else {
      GridExactly(xlo, xhi - 1, ylo, yhi);
      ColumnExactly(xhi, ylo, yhi);
      ExactlyConcat(Grid(xlo, xhi - 1, ylo, yhi), Column(xhi, ylo, yhi),
                    Rect(xlo, xhi - 1, ylo, yhi), Rect(xhi, xhi, ylo, yhi), Rect(xlo, xhi, ylo, yhi));
    }
  }

  /** Columns pushed right to left list their rectangle exactly. */
  lemma {:induction false} ColumnsLeftExactly(xlo: int, xhi: int, ylo: int, yhi: int)
    requires xlo <= xhi + 1 && ylo <= yhi + 1
    ensures Exactly(ColumnsLeft(xlo, xhi, ylo, yhi), Rect(xlo, xhi, ylo, yhi))
    decreases xhi - xlo + 1
  {
    if xhi < xlo {
      EmptyExactly(Rect(xlo, xhi, ylo, yhi));
    } else {
      ColumnsLeftExactly(xlo + 1, xhi, ylo, yhi);
      ColumnExactly(xlo, ylo, yhi);
      ExactlyConcat(ColumnsLeft(xlo + 1, xhi, ylo, yhi), Column(xlo, ylo, yhi),
                    Rect(xlo + 1, xhi, ylo, yhi), Rect(xlo, xlo, ylo, yhi), Rect(xlo, xhi, ylo, yhi));
    }
  }

  /** Rows pushed bottom to top list their rectangle exactly. */
  lemma {:induction false} RowsUpExactly(xlo: int, xhi: int, ylo: int, yhi: int)
    requires xlo <= xhi + 1 && ylo <= yhi + 1
    ensures Exactly(RowsUp(xlo, xhi, ylo, yhi), Rect(xlo, xhi, ylo, yhi))
    decreases yhi - ylo + 1
  {
    if yhi < ylo {
      EmptyExactly(Rect(xlo, xhi, ylo, yhi));
    } else {
      RowsUpExactly(xlo, xhi, ylo, yhi - 1);
      RowExactly(yhi, xlo, xhi);
      ExactlyConcat(RowsUp(xlo, xhi, ylo, yhi - 1), Row(yhi, xlo, xhi),
                    Rect(xlo, xhi, ylo, yhi - 1), Rect(xlo, xhi, yhi, yhi), Rect(xlo, xhi, ylo, yhi));
    }
  }

  /** Rows pushed top to bottom list their rectangle exactly. */
  lemma {:induction false} RowsDownExactly(xlo: int, xhi: int, ylo: int, yhi: int)
    requires xlo <= xhi + 1 && ylo <= yhi + 1
    ensures Exactly(RowsDown(xlo, xhi, ylo, yhi), Rect(xlo, xhi, ylo, yhi))
    decreases yhi - ylo + 1
  {
    if yhi < ylo {
      EmptyExactly(Rect(xlo, xhi, ylo, yhi));
    } else {
      RowsDownExactly(xlo, xhi, ylo + 1, yhi);
      RowExactly(ylo, xlo, xhi);
      ExactlyConcat(RowsDown(xlo, xhi, ylo + 1, yhi), Row(ylo, xlo, xhi),
                    Rect(xlo, xhi, ylo + 1, yhi), Rect(xlo, xhi, ylo, ylo), Rect(xlo, xhi, ylo, yhi));
    }
  }

  /** A grid of columns has width times height entries. */
  lemma {:induction false} GridLength(xlo: int, xhi: int, ylo: int, yhi: int)
    requires xlo <= xhi + 1 && ylo <= yhi + 1
    ensures |Grid(xlo, xhi, ylo, yhi)| == (xhi - xlo + 1) * (yhi - ylo + 1)
    decreases xhi - xlo + 1
  {
    if xlo <= xhi {
      GridLength(xlo, xhi - 1, ylo, yhi);
      var h := yhi - ylo + 1;
      assert (xhi - xlo) * h + h == (xhi - xlo + 1) * h;
    }
  }

  /** Any sequence listing a window exactly has 33 * 33 = 1089 entries. */
  lemma WindowSize(s: seq<Patch>, center: Patch)
    requires Exactly(s, Window(center))
    ensures |s| == PatchesPerSide * PatchesPerSide
  {
    GridWindow(center);
    var g := Grid(center.0 - Half, center.0 + Half, center.1 - Half, center.1 + Half);
    assert |s| == |multiset(s)| == |multiset(g)| == |g|;
  }

  /** The members of an exact listing are the rectangle's coordinates. */
  lemma ExactlyMembers(s: seq<Patch>, b: Rect)
    requires Exactly(s, b)
    ensures forall p :: p in s <==> b.Contains(p)
  {
    ExactlyMeans(s, b);
  }

  /** The inner loop pushing one column of patches. */
  method PushColumn(patches: seq<Patch>, ix: int, ylo: int, yhi: int) returns (r: seq<Patch>)
    requires ylo <= yhi + 1
    ensures r == patches + Column(ix, ylo, yhi)
  {
    r := patches;
    var iy := ylo;
    while iy <= yhi
      invariant ylo <= iy <= yhi + 1
      invariant r == patches + Column(ix, ylo, iy - 1)
      decreases yhi - iy
    {
      assert patches + Column(ix, ylo, iy - 1) + [(ix, iy)] == patches + Column(ix, ylo, iy);
      r := r + [(ix, iy)];
      iy := iy + 1;
    }
  }

  /** The inner loop pushing one row of patches. */
  method PushRow(patches: seq<Patch>, iy: int, xlo: int, xhi: int) returns (r: seq<Patch>)
    requires xlo <= xhi + 1
    ensures r == patches + Row(iy, xlo, xhi)
  {
    r := patches;
    var ix := xlo;
    while ix <= xhi
      invariant xlo <= ix <= xhi + 1
      invariant r == patches + Row(iy, xlo, ix - 1)
      decreases xhi - ix
    {
      assert patches + Row(iy, xlo, ix - 1) + [(ix, iy)] == patches + Row(iy, xlo, ix);
      r := r + [(ix, iy)];
      ix := ix + 1;
    }
  }

  /** The nested loop of `new`: column after column, each from bottom to top. */
  method PushGrid(patches: seq<Patch>, xlo: int, xhi: int, ylo: int, yhi: int) returns (r: seq<Patch>)
    requires xlo <= xhi + 1 && ylo <= yhi + 1
    ensures r == patches + Grid(xlo, xhi, ylo, yhi)
  {
    r := patches;
    var ix := xlo;
    while ix <= xhi
      invariant xlo <= ix <= xhi + 1
      invariant r == patches + Grid(xlo, ix - 1, ylo, yhi)
      decreases xhi - ix
    {
      assert patches + Grid(xlo, ix - 1, ylo, yhi) + Column(ix, ylo, yhi) == patches + Grid(xlo, ix, ylo, yhi);
      r := PushColumn(r, ix, ylo, yhi);
      ix := ix + 1;
    }
  }

  /**
    `Terrain::new` with the center patch given: the patches are the window
    around `(x0, y0)`, column by column, each coordinate once, 1089 in all.
   */
  method New(x0: int, y0: int) returns (t: Terrain)
    ensures t.center == (x0, y0)
    ensures t.patches == Grid(x0 - Half, x0 + Half, y0 - Half, y0 + Half)
    ensures IsWindow(t) && |t.patches| == PatchesPerSide * PatchesPerSide
  {
    var g := PushGrid([], x0 - Half, x0 + Half, y0 - Half, y0 + Half);
    GridWindowOf((x0, y0), g);
    t := Terrain((x0, y0), g);
  }

  /** A sequence equal to the window grid lists the window exactly and has 1089 entries. */
  lemma GridWindowOf(center: Patch, g: seq<Patch>)
    requires g == Grid(center.0 - Half, center.0 + Half, center.1 - Half, center.1 + Half)
    ensures Exactly(g, Window(center)) && |g| == PatchesPerSide * PatchesPerSide
  {
    GridWindow(center);
  }

  /** The grid `new` builds lists the window exactly and has 1089 entries. */
  lemma GridWindow(center: Patch)
    ensures var g := Grid(center.0 - Half, center.0 + Half, center.1 - Half, center.1 + Half);
            Exactly(g, Window(center)) && |g| == PatchesPerSide * PatchesPerSide
  {
    GridExactly(center.0 - Half, center.0 + Half, center.1 - Half, center.1 + Half);
    GridLength(center.0 - Half, center.0 + Half, center.1 - Half, center.1 + Half);
  }

  /** The larger and the smaller of two integers: where the x and y loops stop. */
  function Max(a: int, b: int): int { if a < b then b else a }
  function Min(a: int, b: int): int { if a < b then a else b }

  /**
    The rectangles the four `update` loops add when the center moves from `c`
    to `(x0, y0)`: the columns entering on the right, those entering on the
    left, then the rows entering at the top and at the bottom (the latter two
    already at the new x). At most one of each pair is non-empty.
   */
  function RightRect(c: Patch, x0: int): Rect
  {
    Rect(c.0 + Half + 1, Max(c.0, x0) + Half, c.1 - Half, c.1 + Half)
  }

  function LeftRect(c: Patch, x0: int): Rect
  {
    Rect(x0 - Half, Max(c.0, x0) - Half - 1, c.1 - Half, c.1 + Half)
  }

  function UpRect(c: Patch, x0: int, y0: int): Rect
  {
    Rect(x0 - Half, x0 + Half, c.1 + Half + 1, Max(c.1, y0) + Half)
  }

  function DownRect(c: Patch, x0: int, y0: int): Rect
  {
    Rect(x0 - Half, x0 + Half, y0 - Half, Max(c.1, y0) - Half - 1)
  }

  /** The horizontal band covered by the old window and the columns added to either side. */
  function BandRect(c: Patch, x0: int): Rect
  {
    Rect(Min(c.0, x0) - Half, Max(c.0, x0) + Half, c.1 - Half, c.1 + Half)
  }

  /** The patches each `update` loop appends, in push order. */
  function RightStrip(c: Patch, x0: int): seq<Patch>
  {
    Grid(c.0 + Half + 1, Max(c.0, x0) + Half, c.1 - Half, c.1 + Half)
  }

  function LeftStrip(c: Patch, x0: int): seq<Patch>
  {
    ColumnsLeft(x0 - Half, Max(c.0, x0) - Half - 1, c.1 - Half, c.1 + Half)
  }

  function UpStrip(c: Patch, x0: int, y0: int): seq<Patch>
  {
    RowsUp(x0 - Half, x0 + Half, c.1 + Half + 1, Max(c.1, y0) + Half)
  }

  function DownStrip(c: Patch, x0: int, y0: int): seq<Patch>
  {
    RowsDown(x0 - Half, x0 + Half, y0 - Half, Max(c.1, y0) - Half - 1)
  }

  /** The patch list after the four loops of `update`, before `retain`; it extends the old list. */
  function Shifted(t: Terrain, x0: int, y0: int): (s: seq<Patch>)
    ensures t.patches <= s
  {
    var c := t.center;
    t.patches + RightStrip(c, x0) + LeftStrip(c, x0) + UpStrip(c, x0, y0) + DownStrip(c, x0, y0)
  }

  /**
    `Vec::retain` with the window condition: the patches inside the window
    around `center`, in their original order.
   */
  function Retain(s: seq<Patch>, center: Patch): (r: seq<Patch>)
    ensures |r| <= |s|
    ensures forall i :: 0 <= i < |r| ==> InWindow(r[i], center)
  {
    if s == [] then []
    else
      var rest := Retain(s[1..], center);
      if InWindow(s[0], center) then [s[0]] + rest else rest
  }

  /** `retain` keeps every copy of an in-window coordinate and no copy of any other. */
  lemma {:induction false} RetainCount(s: seq<Patch>, center: Patch)
    ensures forall p :: multiset(Retain(s, center))[p] == if InWindow(p, center) then multiset(s)[p] else 0
  {
    if s != [] {
      RetainCount(s[1..], center);
      assert s == [s[0]] + s[1..];
      assert multiset(s) == multiset{s[0]} + multiset(s[1..]);
    }
  }

  /** A coordinate survives `retain` iff it was present and lies in the window. */
  lemma RetainMembers(s: seq<Patch>, center: Patch)
    ensures forall p :: p in Retain(s, center) <==> p in s && InWindow(p, center)
  {
    var r := Retain(s, center);
    RetainCount(s, center);
    forall p ensures p in r <==> p in s && InWindow(p, center) {
      assert p in r <==> multiset(r)[p] > 0;
      assert p in s <==> multiset(s)[p] > 0;
    }
  }

  /** `retain` of a list that lies wholly inside the window changes nothing. */
  lemma {:induction false} RetainAll(s: seq<Patch>, center: Patch)
    requires forall p :: p in s ==> InWindow(p, center)
    ensures Retain(s, center) == s
  {
    if s != [] {
      assert s[0] in s;
      assert forall p :: p in s[1..] ==> p in s;
      RetainAll(s[1..], center);
      assert s == [s[0]] + s[1..];
    }
  }

  /** The terrain `update` leaves behind: the new center and the retained patches. */
  function Updated(t: Terrain, x0: int, y0: int): (r: Terrain)
  {
    Terrain((x0, y0), Retain(Shifted(t, x0, y0), (x0, y0)))
  }

  /**
    After `update` every patch lies in the window around the target, and no
    old patch that lies there is lost.
   */
  lemma UpdateBounds(t: Terrain, x0: int, y0: int)
    ensures var r := Updated(t, x0, y0);
            && (forall i :: 0 <= i < |r.patches| ==> InWindow(r.patches[i], (x0, y0)))
            && (forall p :: p in t.patches && InWindow(p, (x0, y0)) ==> p in r.patches)
  {
    RetainMembers(Shifted(t, x0, y0), (x0, y0));
  }

  /** `while x0 > center.0`: step right, pushing the column that enters at `center.0 + 16`. */
  method ShiftRight(patches: seq<Patch>, center: Patch, x0: int) returns (ps: seq<Patch>, c: Patch)
    ensures c == (Max(center.0, x0), center.1)
    ensures ps == patches + RightStrip(center, x0)
  {
    c, ps := center, patches;
    assert Grid(center.0 + Half + 1, center.0 + Half, center.1 - Half, center.1 + Half) == [];
    assert ps == patches + [];
    while x0 > c.0
      invariant center.0 <= c.0 <= Max(center.0, x0) && c.1 == center.1
      invariant ps == patches + Grid(center.0 + Half + 1, c.0 + Half, c.1 - Half, c.1 + Half)
      decreases x0 - c.0
    {
      c := (c.0 + 1, c.1);
      ps := PushColumn(ps, c.0 + Half, c.1 - Half, c.1 + Half);
    }
  }

  /** `while x0 < center.0`: step left, pushing the column that enters at `center.0 - 16`. */
  method ShiftLeft(patches: seq<Patch>, center: Patch, x0: int) returns (ps: seq<Patch>, c: Patch)
    ensures c == (Min(center.0, x0), center.1)
    ensures ps == patches + ColumnsLeft(Min(center.0, x0) - Half, center.0 - Half - 1, center.1 - Half, center.1 + Half)
  {
    c, ps := center, patches;
    assert ColumnsLeft(center.0 - Half, center.0 - Half - 1, center.1 - Half, center.1 + Half) == [];
    assert ps == patches + [];
    while x0 < c.0
      invariant Min(center.0, x0) <= c.0 <= center.0 && c.1 == center.1
      invariant ps == patches + ColumnsLeft(c.0 - Half, center.0 - Half - 1, c.1 - Half, c.1 + Half)
      decreases c.0 - x0
    {
      c := (c.0 - 1, c.1);
      ps := PushColumn(ps, c.0 - Half, c.1 - Half, c.1 + Half);
    }
  }

  /** `while y0 > center.1`: step up, pushing the row that enters at `center.1 + 16`. */
  method ShiftUp(patches: seq<Patch>, center: Patch, y0: int) returns (ps: seq<Patch>, c: Patch)
    ensures c == (center.0, Max(center.1, y0))
    ensures ps == patches + RowsUp(center.0 - Half, center.0 + Half, center.1 + Half + 1, Max(center.1, y0) + Half)
  {
    c, ps := center, patches;
    assert RowsUp(center.0 - Half, center.0 + Half, center.1 + Half + 1, center.1 + Half) == [];
    assert ps == patches + [];
    while y0 > c.1
      invariant center.1 <= c.1 <= Max(center.1, y0) && c.0 == center.0
      invariant ps == patches + RowsUp(c.0 - Half, c.0 + Half, center.1 + Half + 1, c.1 + Half)
      decreases y0 - c.1
    {
      c := (c.0, c.1 + 1);
      ps := PushRow(ps, c.1 + Half, c.0 - Half, c.0 + Half);
    }
  }

  /** `while y0 < center.1`: step down, pushing the row that enters at `center.1 - 16`. */
  method ShiftDown(patches: seq<Patch>, center: Patch, y0: int) returns (ps: seq<Patch>, c: Patch)
    ensures c == (center.0, Min(center.1, y0))
    ensures ps == patches + RowsDown(center.0 - Half, center.0 + Half, Min(center.1, y0) - Half, center.1 - Half - 1)
  {
    c, ps := center, patches;
    assert RowsDown(center.0 - Half, center.0 + Half, center.1 - Half, center.1 - Half - 1) == [];
    assert ps == patches + [];
    while y0 < c.1
      invariant Min(center.1, y0) <= c.1 <= center.1 && c.0 == center.0
      invariant ps == patches + RowsDown(c.0 - Half, c.0 + Half, c.1 - Half, center.1 - Half - 1)
      decreases c.1 - y0
    {
      c := (c.0, c.1 - 1);
      ps := PushRow(ps, c.1 - Half, c.0 - Half, c.0 + Half);
    }
  }

  /**
    `Terrain::update` with the target patch given: the four loops, then
    `retain`. The center ends at the target, and a terrain that held exactly
    its window holds exactly the new window afterwards, 1089 patches.
   */
  method Update(t: Terrain, x0: int, y0: int) returns (r: Terrain)
    ensures r.center == (x0, y0)
    ensures r == Updated(t, x0, y0)
    ensures IsWindow(t) ==> IsWindow(r) && |r.patches| == PatchesPerSide * PatchesPerSide
  {
    var c0 := t.center;
    var p1, c1 := ShiftRight(t.patches, c0, x0);
    var p2, c2 := ShiftLeft(p1, c1, x0);
    assert Min(Max(c0.0, x0), x0) == x0;
    assert p2 == t.patches + RightStrip(c0, x0) + LeftStrip(c0, x0);
    var p3, c3 := ShiftUp(p2, c2, y0);
    assert p3 == t.patches + RightStrip(c0, x0) + LeftStrip(c0, x0) + UpStrip(c0, x0, y0);
    var p4, c4 := ShiftDown(p3, c3, y0);
    assert Min(Max(c0.1, y0), y0) == y0;
    assert p4 == Shifted(t, x0, y0);
    r := Terrain(c4, Retain(p4, (x0, y0)));
    if IsWindow(t) {
      UpdateKeepsWindow(t, x0, y0);
    }
  }

  /** The old window plus the columns added on either side list the horizontal band exactly. */
  lemma Band(s0: seq<Patch>, a1: seq<Patch>, a2: seq<Patch>, c: Patch, x0: int)
    requires Exactly(s0, Window(c)) && Exactly(a1, RightRect(c, x0)) && Exactly(a2, LeftRect(c, x0))
    ensures Exactly(s0 + a1 + a2, BandRect(c, x0))
  {
    var mid := Rect(c.0 - Half, Max(c.0, x0) + Half, c.1 - Half, c.1 + Half);
    ExactlyConcat(s0, a1, Window(c), RightRect(c, x0), mid);
    ExactlyConcat(s0 + a1, a2, mid, LeftRect(c, x0), BandRect(c, x0));
  }

  /**
    Three exact listings of pairwise disjoint rectangles that cover the window
    leave, after `retain`, exactly the window.
   */
  lemma Pieces(s: seq<Patch>, a: seq<Patch>, b: seq<Patch>, rs: Rect, ra: Rect, rb: Rect, center: Patch)
    requires Exactly(s, rs) && Exactly(a, ra) && Exactly(b, rb)
    requires Disjoint(rs, ra) && Disjoint(rs, rb) && Disjoint(ra, rb)
    requires forall p :: Window(center).Contains(p) ==> rs.Contains(p) || ra.Contains(p) || rb.Contains(p)
    ensures Exactly(Retain(s + a + b, center), Window(center))
  {
    var all := s + a + b;
    assert multiset(all) == multiset(s) + multiset(a) + multiset(b);
    var u := Retain(all, center);
    RetainCount(all, center);
    var w := Window(center);
    CellsMeans(rs);
    CellsMeans(ra);
    CellsMeans(rb);
    CellsMeans(w);
    WindowMeans(center);
    forall p ensures multiset(u)[p] == multiset(Cells(w))[p] {
      if InWindow(p, center) {
        assert w.Contains(p);
      }
    }
    assert multiset(u) == multiset(Cells(w));
  }

  /** The band and the two row blocks are pairwise disjoint and cover the new window. */
  lemma Geometry(c: Patch, x0: int, y0: int)
    ensures Disjoint(BandRect(c, x0), UpRect(c, x0, y0))
    ensures Disjoint(BandRect(c, x0), DownRect(c, x0, y0))
    ensures Disjoint(UpRect(c, x0, y0), DownRect(c, x0, y0))
    ensures forall p :: Window((x0, y0)).Contains(p) ==>
              BandRect(c, x0).Contains(p) || UpRect(c, x0, y0).Contains(p) || DownRect(c, x0, y0).Contains(p)
  {
  }

  /** The old window plus the four strips, retained, is exactly the new window. */
  lemma WindowAfterShift(s0: seq<Patch>, g: seq<Patch>, cl: seq<Patch>, ru: seq<Patch>, rd: seq<Patch>,
                         c: Patch, x0: int, y0: int)
    requires Exactly(s0, Window(c))
    requires Exactly(g, RightRect(c, x0)) && Exactly(cl, LeftRect(c, x0))
    requires Exactly(ru, UpRect(c, x0, y0)) && Exactly(rd, DownRect(c, x0, y0))
    ensures Exactly(Retain(s0 + g + cl + ru + rd, (x0, y0)), Window((x0, y0)))
  {
    Band(s0, g, cl, c, x0);
    Geometry(c, x0, y0);
    Pieces(s0 + g + cl, ru, rd, BandRect(c, x0), UpRect(c, x0, y0), DownRect(c, x0, y0), (x0, y0));
  }

  /** Each appended strip lists its rectangle exactly. */
  lemma RightStripExactly(c: Patch, x0: int)
    ensures Exactly(RightStrip(c, x0), RightRect(c, x0))
  {
    GridExactly(c.0 + Half + 1, Max(c.0, x0) + Half, c.1 - Half, c.1 + Half);
  }

  lemma LeftStripExactly(c: Patch, x0: int)
    ensures Exactly(LeftStrip(c, x0), LeftRect(c, x0))
  {
    ColumnsLeftExactly(x0 - Half, Max(c.0, x0) - Half - 1, c.1 - Half, c.1 + Half);
  }

  lemma UpStripExactly(c: Patch, x0: int, y0: int)
    ensures Exactly(UpStrip(c, x0, y0), UpRect(c, x0, y0))
  {
    RowsUpExactly(x0 - Half, x0 + Half, c.1 + Half + 1, Max(c.1, y0) + Half);
  }

  lemma DownStripExactly(c: Patch, x0: int, y0: int)
    ensures Exactly(DownStrip(c, x0, y0), DownRect(c, x0, y0))
  {
    RowsDownExactly(x0 - Half, x0 + Half, y0 - Half, Max(c.1, y0) - Half - 1);
  }

  /**
    `update` preserves the window invariant: whatever the target, the result
    holds every coordinate of the new window exactly once, 1089 patches.
   */
  lemma UpdateKeepsWindow(t: Terrain, x0: int, y0: int)
    requires IsWindow(t)
    ensures IsWindow(Updated(t, x0, y0))
    ensures |Updated(t, x0, y0).patches| == PatchesPerSide * PatchesPerSide
  {
    var c := t.center;
    RightStripExactly(c, x0);
    LeftStripExactly(c, x0);
    UpStripExactly(c, x0, y0);
    DownStripExactly(c, x0, y0);
    WindowAfterShift(t.patches, RightStrip(c, x0), LeftStrip(c, x0), UpStrip(c, x0, y0), DownStrip(c, x0, y0), c, x0, y0);
    WindowSize(Updated(t, x0, y0).patches, (x0, y0));
  }

  /** `update` towards the current center leaves the terrain as it was. */
  lemma UpdateInPlace(t: Terrain)
    requires IsWindow(t)
    ensures Updated(t, t.center.0, t.center.1) == t
  {
    var c := t.center;
    assert RightStrip(c, c.0) == [];
    assert LeftStrip(c, c.0) == [];
    assert UpStrip(c, c.0, c.1) == [];
    assert DownStrip(c, c.0, c.1) == [];
    assert Shifted(t, c.0, c.1) == t.patches;
    ExactlyMembers(t.patches, Window(c));
    WindowMeans(c);
    RetainAll(t.patches, c);
  }

  /**
    One step right appends exactly one column: the 33 patches with
    `ix = center.0 + 17`, from `iy = center.1 - 16` upwards.
   */
  lemma StepRightShift(t: Terrain)
    ensures var c := t.center;
            var col := Column(c.0 + Half + 1, c.1 - Half, c.1 + Half);
            && Shifted(t, c.0 + 1, c.1) == t.patches + col
            && |col| == PatchesPerSide
            && (forall i :: 0 <= i < |col| ==> col[i] == (c.0 + Half + 1, c.1 - Half + i))
  {
    var c := t.center;
    var col := Column(c.0 + Half + 1, c.1 - Half, c.1 + Half);
    assert Grid(c.0 + Half + 1, c.0 + Half, c.1 - Half, c.1 + Half) == [];
    assert RightStrip(c, c.0 + 1) == [] + col;
    assert LeftStrip(c, c.0 + 1) == [];
    assert UpStrip(c, c.0 + 1, c.1) == [];
    assert DownStrip(c, c.0 + 1, c.1) == [];
    ColumnAt(c.0 + Half + 1, c.1 - Half, c.1 + Half);
  }

  /** Against a list holding exactly the old window, the right step evicts exactly the old left column. */
  lemma EvictAt(prior: seq<Patch>, extra: seq<Patch>, c: Patch, p: Patch)
    requires forall q :: q in prior <==> Window(c).Contains(q)
    ensures (p in prior && p !in Retain(prior + extra, (c.0 + 1, c.1)))
            <==> (p.0 == c.0 - Half && c.1 - Half <= p.1 <= c.1 + Half)
  {
    RetainMembers(prior + extra, (c.0 + 1, c.1));
  }

  /** After one step right, a patch has been evicted iff it was in column `center.0 - 16`. */
  lemma StepRightAt(t: Terrain, p: Patch)
    requires IsWindow(t)
    ensures var c := t.center;
            (p in t.patches && p !in Updated(t, c.0 + 1, c.1).patches)
            <==> (p.0 == c.0 - Half && c.1 - Half <= p.1 <= c.1 + Half)
  {
    var c := t.center;
    StepRightShift(t);
    ExactlyMembers(t.patches, Window(c));
    EvictAt(t.patches, Column(c.0 + Half + 1, c.1 - Half, c.1 + Half), c, p);
  }

  /** After one step right, `retain` has removed exactly the 33 patches of column `center.0 - 16`. */
  lemma StepRight(t: Terrain)
    requires IsWindow(t)
    ensures var c := t.center;
            forall p :: (p in t.patches && p !in Updated(t, c.0 + 1, c.1).patches)
                        <==> (p.0 == c.0 - Half && c.1 - Half <= p.1 <= c.1 + Half)
  {
    forall p {
      StepRightAt(t, p);
    }
  }
}

=== FILE: wrappers.dfy ===
/** Failure-carrying datatypes shared by the render-target model. */
module Wrappers {

  /** An optional value; `None` plays the role of Rust's `Option::None`. */
  datatype Option<+T> = None | Some(value: T)

  /** Either a value or the message of the panic the Rust code raises instead. */
  datatype Result<+R> = Success(value: R) | Failure(message: string)
}
